=== FILE: README.md ===
# env-ssm in Dafny

This project models the core of `env-ssm`, a library that builds an
application's configuration from an AWS Systems Manager parameter store, local
`.env` and `.tfvars` files and the process environment, and then hands out
typed values through a coercion layer. It also proves properties of that model.
The model is a set of pure functions over immutable datatypes. The store, the
file system and the host's primitive parsers appear only as oracle parameters.

One module per source file:

| module | file | models |
|---|---|---|
| `Coercions` | `coercion.dfy` | `src/coercion.ts`: the container, the `Coercion` builder (`required`, `default`, value defaulting) and every `asX` conversion with its exact error |
| `JsValue` | `js_value.dfy` | the JavaScript values the coercion layer inspects, `String(v)`, `Number(v)`, `typeof … === 'object'`; `Number` text parsing, number printing, `JSON.parse` and `new URL` are an oracle record (`Runtime`) |
| `PathSpecs` | `path_ssm.dfy` | `src/path-ssm.ts`: `PathSsm.like`, `PathSsm.from` and the constructor's default delimiter |
| `SsmLoader` | `ssm_loader.dfy` | `src/loaders/ssm.ts`: strategy choice by delimiter, by-path pagination, describe pagination with batches of ten, per-path failure isolation, key derivation and the deep-set fold |
| `Pagination` | `pagination.dfy` | token-driven pagination as a reply chain (`Chain`), the explicit request loop, and lodash `chunk` |
| `StringTree` | `string_tree.dfy` | the nested result object and lodash `set` on it |
| `EnvSsm` | `env_ssm.dfy` | `src/env-ssm.ts`: input and option normalisation, the `trim` key derivation and the last-write-wins fold over the process environment |
| `LibParams` | `lib_params.dfy` | `src/lib/index.ts`: the environment found/missing partition and the prefixed store lookup |
| `ParamsCache` | `params_cache.dfy` | `src/index.ts`: the module-level `params` cache as one state transition, with both lookups abstract |
| `FileSources`, `DotEnv`, `TfVars` | `file_sources.dfy`, `dotenv.dfy`, `tfvars.dfy` | `src/loaders/dotenv.ts` and `src/loaders/tfvars.ts`: which file is read, and the loading both share (a missing file is empty, other errors propagate) |
| `Strings`, `Wrappers` | `strings.dfy`, `wrappers.dfy` | the JavaScript string operations used (`indexOf`, `split`, `join`, `replace` with a string pattern, `substring`, `toLowerCase`), and `Option`/`Result` |

The repository holds historical variants that disagree with each other. Each
file is modelled on its own terms:

- `ssm.ts` takes string paths and one global delimiter.
- `env-ssm.ts` takes `{ path, trim }` records.
- `src/index.ts` calls the two lookups with a different signature from the one `src/lib/index.ts` defines.

Some behaviour of the code worth knowing:

- The store strategy depends only on whether the global delimiter is exactly `'/'` (`src/loaders/ssm.ts:21`). Whether the path starts with `'/'` plays no part.
- For an object input, `PathSsm.from` ignores the call-level delimiter and uses only the object's own `delimiter`, defaulting to `'/'` (`src/path-ssm.ts:12`).
- A delimiter of `null` or `""` is kept as given. The constructor substitutes `'/'` only for `undefined`.
- In `src/env-ssm.ts` the fold starts from the process environment, so store parameters override process variables. Both flags default to `true`.

## Model

| member | source | states |
|---|---|---|
| Coercions.Get | src/coercion.ts:24-26 | `get(key)` wraps exactly the source's value at `key`, or undefined when the key is absent; the wrapper starts not required and without a default |
| Coercions.GetReadsSource | src/coercion.ts:24-26 | reading a string entry through `get` and `asString` yields that entry unchanged; an absent key yields undefined |
| Coercions.Required | src/coercion.ts:50-53 | `required(c)` sets the flag to exactly `c` and leaves key, value and default untouched |
| Coercions.Default | src/coercion.ts:59-62 | `default(d)` sets the fallback to `d` and leaves key, value and flag untouched |
| Coercions.GetValue | src/coercion.ts:68-77 | a non-nullish raw value is kept, a nullish one is replaced by the default (whatever the default is, when the key is not required); the result fails iff the key is required and both are nullish, and then with the missing-variable error |
| Coercions.DefaultOnlyWhenNullish | src/coercion.ts:68-72 | a default never replaces a present value, `""`, `0` and `false` included |
| Coercions.RequiredMissingFailsEveryConversion | src/coercion.ts:50-75 | a required key that is nullish after defaulting makes all eight conversions fail with the missing-variable error; `required(false)` afterwards clears that failure |
| Coercions.AsString | src/coercion.ts:82-86 | fails only when the value lookup fails; a nullish value passes through as is, and any other value becomes its `String(...)` form |
| Coercions.AsStringIdempotent | src/coercion.ts:82-86 | coercing a string that `asString` produced gives it back; a nullish result re-wrapped comes back as undefined |
| Coercions.AsBool | src/coercion.ts:92-101 | true iff the value is `true` or spells "true" in any letter case; false iff it is `false` or spells "false"; every other value fails with the invalid-boolean error showing `String(value)` |
| Coercions.BoolSpellings | src/coercion.ts:92-101 | `FALSE` and `TrUe` are accepted; `notabool`, the number 1 and an absent optional value are rejected |
| Coercions.AsNumber | src/coercion.ts:106-113 | succeeds iff `Number(value)` is not NaN, returning that number; otherwise fails with the invalid-number error |
| Coercions.AsPortNumber | src/coercion.ts:118-124 | succeeds iff the number conversion succeeds and lies in [1, 65535], both ends inclusive; a number outside fails with the invalid-port error, and a NaN keeps the number error |
| Coercions.PortBoundaries | src/coercion.ts:118-124 | 1 and 65535 are accepted; 0 and 65536 are rejected |
| Coercions.AsJsonObject | src/coercion.ts:131-142 | an object or `null` is returned as is; a string succeeds iff it parses, giving the parsed value; numbers, booleans and undefined fail with the invalid-JSON error |
| Coercions.AsEnum | src/coercion.ts:148-156 | succeeds iff the `asString` result is a string in `allowed`, returning it; otherwise fails with the error that lists the allowed values |
| Coercions.AsUrlString | src/coercion.ts:162-173 | returns the `asString` value iff the URL constructor accepts it; a `TypeError` becomes the invalid-URL error with its message, any other error is rethrown unchanged |
| Coercions.AsUrlObject | src/coercion.ts:178-188 | succeeds exactly when `asUrlString` does, returning the URL the constructor built; it fails with the same error otherwise |
| Coercions.MessagesNameTheFailure | src/coercion.ts:74-152 | every error message starts with the phrase naming its failure |
| PathSpecs.Make | src/path-ssm.ts:19-22 | the path is copied unchanged; the delimiter becomes `'/'` only when it is undefined |
| PathSpecs.From | src/path-ssm.ts:8-15 | fails with the PathSsmLike `TypeError` iff the input is neither a string nor an object with a `path`; a string takes the call's delimiter; an object takes its own delimiter or `'/'`; the delimiter is never undefined |
| PathSpecs.ObjectIgnoresCallDelimiter | src/path-ssm.ts:12-14 | an object input gives the same result whatever delimiter the call passes |
| PathSpecs.StringInput | src/path-ssm.ts:12-13 | a string input is accepted as the path, with the call's delimiter, or `'/'` when none is passed |
| PathSpecs.RejectsNonLike | src/path-ssm.ts:4-11 | numbers, booleans, `null`, undefined and objects without `path` are rejected |
| SsmLoader.StrategyFor | src/loaders/ssm.ts:21 | the by-path strategy is chosen iff the delimiter is exactly `'/'` |
| SsmLoader.StrategySelection | src/loaders/ssm.ts:21 | with `'/'` the result depends only on the by-path replies; with any other delimiter it depends only on the describe and get-by-names replies |
| Pagination.Paginate | src/loaders/ssm.ts:41-65 | the request loop gathers every page's items in page order, treating a missing list as empty; it sends one request more than the number of tokens received: the first without a token, each later one with the previous reply's token |
| Pagination.CollectedChained | src/loaders/ssm.ts:41-65 | the items of a run are those of its leading pages, in order, followed by those of the rest of the run |
| SsmLoader.FailedPathYieldsEarlierPages | src/loaders/ssm.ts:44-88 | a by-path run that fails after any number of pages yields exactly those pages' parameters for the path; a describe run that fails after any number of pages has exactly those pages' names fetched in batches |
| Pagination.Chunk | src/loaders/ssm.ts:92 | the chunks concatenate back to the input; each holds between 1 and `size` items; all but the last hold exactly `size`; a size of 0 gives no chunks |
| SsmLoader.Batches | src/loaders/ssm.ts:92-95 | the name lists of the get-by-names requests hold 1 to 10 names each and concatenate to the described names in order |
| SsmLoader.BatchResult | src/loaders/ssm.ts:96-111 | a successful get-by-names reply contributes all its parameters, in reply order, tagged with the path (a missing list counting as empty); a failed one contributes nothing |
| SsmLoader.FetchBatches | src/loaders/ssm.ts:93-113 | every parameter fetched for a path is tagged with that path |
| SsmLoader.FailingBatchDropsOnlyItself | src/loaders/ssm.ts:96-111 | a failing batch contributes nothing and the other batches' results keep their order |
| SsmLoader.FetchedBatchContributesItsParameters | src/loaders/ssm.ts:96-111 | a successful batch's parameters, all of them and in reply order, sit between the results of the batches before and after it |
| SsmLoader.PerPath | src/loaders/ssm.ts:37-118 | whichever strategy is used, everything returned for a path carries that path |
| SsmLoader.CompletedPathYieldsAllPages | src/loaders/ssm.ts:44-88 | a by-path run that completes after any number of pages yields every page's parameters for the path, the last page's included, in page order; a describe run that completes has every page's names fetched in batches, in order |
| SsmLoader.Gather | src/loaders/ssm.ts:39-67 | every gathered parameter comes from one of the configured paths |
| SsmLoader.GatherAppend | src/loaders/ssm.ts:116-119 | results are concatenated in the order of `paths`: gathering `a + b` is gathering `a`, then `b` |
| SsmLoader.FailureIsolation | src/loaders/ssm.ts:52-63 | whatever the store does for one path, the parameters fetched for every other path are unchanged |
| SsmLoader.StripPath | src/loaders/ssm.ts:30 | a name without the path as prefix is unchanged; a name with it loses the path, and also the delimiter exactly when the delimiter follows the path |
| SsmLoader.NestedNameKey | src/loaders/ssm.ts:30 | a name of the form path + delimiter + segments joined by the delimiter is keyed by the segments joined with dots, and lodash sets it at exactly those segments |
| SsmLoader.PasswordKey | src/loaders/ssm.ts:28-30 | `/app/stg/db/password` under `/app/stg` is set at `db`, `password` |
| SsmLoader.EntriesFromNamed | src/loaders/ssm.ts:24-25 | every assignment of the fold comes from a parameter that has a name |
| SsmLoader.NamelessIgnored | src/loaders/ssm.ts:25 | a parameter without a name, at any position, leaves the result unchanged |
| SsmLoader.LaterParameterWins | src/loaders/ssm.ts:24-34 | a named parameter's value is what its key holds at the end, unless a later named parameter writes at, above or below that key |
| SsmLoader.BuildAppend | src/loaders/ssm.ts:24-34 | the fold over `a + b` applies `b`'s assignments on top of the fold over `a` |
| SsmLoader.LaterPathsOverride | src/loaders/ssm.ts:15-34 | `loadSsmParams` over paths `a + b` sets the parameters fetched for `b` over the result for `a`, so later paths override earlier ones |
| SsmLoader.PathItselfKey | src/loaders/ssm.ts:28-29 | a parameter whose name is its own path is set at the top level, under the path's last segment |
| SsmLoader.PaginatedPasswordExample | src/loaders/ssm.ts:24-65 | a parameter delivered on the first of two pages is found at `db.password` in the loaded tree |
| StringTree.SetThenLookup | src/loaders/ssm.ts:33 | after `set(t, p, v)` the tree holds `v` at `p` |
| StringTree.SetKeepsDivergingPaths | src/loaders/ssm.ts:33 | `set` at `p` leaves every path that parts ways with `p` as it was |
| StringTree.SetAllKeepsDivergingPath | src/loaders/ssm.ts:24-34 | a sequence of sets whose paths all part ways with `q` leaves `q` untouched |
| StringTree.SetAllLastWins | src/loaders/ssm.ts:24-34 | in a sequence of sets the last write to a path wins, unless a later write lands at, above or below that path |
| StringTree.SetAllAppend | src/loaders/ssm.ts:24-34 | applying the sets `a + b` is applying `a`, then `b` on top of the result |
| StringTree.SharedPrefixExample | src/loaders/ssm.ts:24-34 | `db.password` and `db.username` share one `db` object, and a second `db.password` replaces the first |
| Strings.SplitJoin | src/loaders/ssm.ts:30 | joining the parts of a split with a non-empty separator rebuilds the string |
| Strings.JoinSplit | src/loaders/ssm.ts:30 | splitting a join of at least one part, none of which contains the one-character separator, gives back the parts |
| Strings.ToLowerMatchesCaseVariant | src/coercion.ts:96-98 | `toLowerCase(s)` equals a lower-case word iff `s` spells that word in some letter case |
| Strings.RemoveFirst | src/env-ssm.ts:103 | with no occurrence at any position the string is unchanged; otherwise the occurrence at the smallest position is cut out and everything around it is kept |
| Strings.RemoveLeadingPattern | src/env-ssm.ts:103 | removing a pattern that the string starts with leaves the rest |
| EnvSsm.ResolvePath | src/env-ssm.ts:38-40 | a string becomes a path without explicit trim; a path record is returned unchanged |
| EnvSsm.AsOptions | src/env-ssm.ts:66 | a string or an array input becomes the `paths` of options with no flags set; an options object is used as is |
| EnvSsm.ResolveOptions | src/env-ssm.ts:45-52 | `trim` and `processEnv` are true unless explicitly false; a single path becomes a one-element list; a list is mapped element-wise, keeping order and length |
| EnvSsm.StringInputDefaults | src/env-ssm.ts:46-52 | a bare string input trims by its path and starts from the process environment |
| EnvSsm.FromPath | src/env-ssm.ts:71-89 | an answered request contributes every returned parameter, in reply order, with its name and value and tagged with the path (a missing list counting as empty); a failed request contributes none |
| EnvSsm.Fetch | src/env-ssm.ts:71-90 | every fetched parameter carries one of the configured paths |
| EnvSsm.FailedPathContributesNothing | src/env-ssm.ts:76-90 | a failing path drops out; the other paths' parameters stay, in order |
| EnvSsm.TrimMatch | src/env-ssm.ts:97-99 | the match is the explicit trim if any, else the path when trimming is on, else none; a base already ending in `'/'` is the match unchanged, any other gets `'/'` appended |
| EnvSsm.KeyOf | src/env-ssm.ts:96-103 | with no match the key is the name; otherwise the first occurrence of the match, at whatever position, is cut out of the name, so a name that starts with the match is keyed by what follows it and a name in which the match occurs nowhere is keyed by itself |
| EnvSsm.KeyUnderPath | src/env-ssm.ts:96-103 | with trimming on, a name directly below its path is keyed by the part after `path/` |
| EnvSsm.UntrimmedKeepsName | src/env-ssm.ts:97-103 | with no match, the key is the whole name |
| EnvSsm.TrimRemovesFirstOccurrenceAnywhere | src/env-ssm.ts:103 | the match is removed where it first occurs, not only at the start: trim `/b` turns `/a/b/c` into `/ac` |
| EnvSsm.LastWrite | src/env-ssm.ts:93-107 | reference for one key: the value of the last named parameter with that key, and no later one writes it; none when no named parameter has the key |
| EnvSsm.CombineIsLastWrite | src/env-ssm.ts:93-107 | the reduce gives each key its last write, or its starting value when nothing wrote it, and adds no other keys |
| EnvSsm.Initial | src/env-ssm.ts:107 | the fold starts from the process environment when `processEnv` holds, else from nothing |
| EnvSsm.LoadContents | src/env-ssm.ts:65-107 | a key holds its last store write, which overrides the process environment; otherwise the process value when it is included; otherwise it is absent |
| EnvSsm.PasswordExample | src/env-ssm.ts:65-107 | `/app/stg/password` under the input `/app/stg` is keyed `password` and beats a process variable of that name |
| LibParams.Absent | src/lib/index.ts:20-28 | the missing names are exactly the requested names that are not environment keys |
| LibParams.GetParamsFromEnv | src/lib/index.ts:15-36 | a requested name is found, with the environment's value, iff it is an environment key, and missing otherwise; the missing names keep request order and duplicates |
| LibParams.AsWrittenBreaksSlashPrefix | src/lib/index.ts:45-48 | as written, `/app/` becomes `/app/.`, and normalising `/app` twice differs from normalising once |
| LibParams.NormalisePrefix | src/lib/index.ts:45-48 | corrected: the empty prefix stays empty; otherwise at most one character is appended, so that a slash-rooted prefix ends in `'/'` and any other ends in `'.'` |
| LibParams.NormalisePrefixIdempotent | src/lib/index.ts:45-48 | the corrected normalisation is idempotent, so updating the options in place is harmless |
| LibParams.CorrectionScope | src/lib/index.ts:45-48 | the correction changes exactly the slash-rooted prefixes that already end in `'/'` |
| LibParams.RequestedNames | src/lib/index.ts:50-53 | the requested names are the prefix followed by each name, in order |
| LibParams.RequestedNameRoundTrip | src/lib/index.ts:52-58 | cutting the prefix's length off a requested name gives back the caller's name |
| LibParams.StoredFromTruthy | src/lib/index.ts:55-62 | a key is found only for a parameter with a non-empty name and value, under its name minus the prefix length |
| LibParams.StoredLastWins | src/lib/index.ts:55-62 | such a parameter's value is what its key holds, unless a later one has the same key |
| LibParams.FoundUnderCallerName | src/lib/index.ts:50-62 | a parameter returned under `prefix + n` with a non-empty value is found under `n` and nothing else is |
| LibParams.EmptyValueSkipped | src/lib/index.ts:57 | an empty value is not stored |
| LibParams.Unprefixed | src/lib/index.ts:63-65 | missing names are the invalid names, each minus the prefix length, or none when the store reports none |
| LibParams.GetParamsFromSsm | src/lib/index.ts:39-68 | with the normalisation of lines 45-48 as a parameter (as written or corrected): the caller's options hold the normalised prefix whether or not the request is rejected; the store is asked for the prefixed names with the options' region; a rejection passes through; otherwise the found map and the missing names are as described above, cut by the normalised prefix's length |
| LibParams.AsWrittenRequestsDottedNames | src/lib/index.ts:45-58 | for prefix `/app/` and name `x`, the code as written asks the store for `/app/.x` and cuts six characters off each returned name; the correction asks for `/app/x` and gives back `x` |
| ParamsCache.Classify | src/index.ts:12-15 | an expected name is found, with the cached value, iff it is cached and missing otherwise; nothing is missing iff every expected name is cached |
| ParamsCache.SubstitutePrefix | src/index.ts:21-27 | a non-empty prefix that names a process variable is replaced by its value; otherwise the options are unchanged |
| ParamsCache.GetParams | src/index.ts:9-44 | a throwing call leaves the cache unchanged; a returning call returns the new cache; no call removes a cached key |
| ParamsCache.CachedCallIsPure | src/index.ts:9-18 | when every expected name is cached (also for none), the cache is returned unchanged and the lookups do not matter |
| ParamsCache.LookupsSeeSubstitutedPrefix | src/index.ts:21-33 | when something is missing, the environment lookup is handed the running result and the options with the substituted prefix, and only its answer to that call matters; if it throws, the call throws the same error with the cache unchanged; if it leaves nothing missing, the cache becomes the old cache overridden by what it found; either way the options are as that lookup left them |
| ParamsCache.StoreLookupOutcome | src/index.ts:35-43 | the store lookup is handed the environment lookup's result and the options as that lookup left them; a rejection rethrows; a result still missing names throws "Unable to retrieve all parameters"; both leave the cache unchanged; otherwise the cache is overridden by what the store found; the options end as the store lookup left them |
| ParamsCache.SuccessOnlyGrows | src/index.ts:31-43 | a cached key changes value only when the call returns; then the lookup that ended the call (the environment lookup if it left nothing missing, the store lookup otherwise) succeeded, found the key, and the new cache is the old one overridden by exactly that lookup's found map |
| FileSources.Load | src/loaders/dotenv.ts:23-35 | a parsed file gives its variables; a failure whose code is ENOENT gives an empty container; any other failure is rethrown unchanged. `loadTfVar` (`src/loaders/tfvars.ts:22-34`) is the same function with another parser, so this member models it too |
| DotEnv.ResolveDotEnv | src/loaders/dotenv.ts:10-21 | no option with `ENV_SSM_DOTENV` set gives cwd joined with it; a file name gives cwd joined with it; `true` gives cwd joined with `.env`; no file exactly for `false`, or for no option and no variable |
| DotEnv.ExplicitOptionIgnoresEnv | src/loaders/dotenv.ts:12-20 | an explicit option, a file name in particular, takes precedence over the environment variable |
| TfVars.ResolveTfVar | src/loaders/tfvars.ts:10-20 | no option with `ENV_SSM_TFVAR` set gives cwd resolved with it; a file name gives cwd resolved with it; no file exactly for a flag, or for no option and no variable |
| TfVars.OffByDefault | src/loaders/tfvars.ts:10-20 | with no option and no variable, and for either flag value, no file is read |
| TfVars.ExplicitOptionIgnoresEnv | src/loaders/tfvars.ts:11-19 | an explicit option takes precedence over the environment variable |

## Left out

- The AWS SDK clients and commands are left out. Replies are oracles: a reply chain per path for each paginated run, and one reply per get-by-names request keyed by path and names. `WithDecryption`, the region default and the dynamic import of the client in `resolveOptions` are not modelled.
- `Promise.all` concurrency is modelled sequentially. Results are ordered by input order, as `Promise.all` guarantees.
- Debug logging is left out, including the logged `InvalidParameters` and error messages. So are the `console.error` in `src/index.ts` and the `env-var` `from` wrapper, whose input container is what `EnvSsm.Load` returns.
- `src/loaders/process.ts` (returns the process environment) and `src/types.ts` (declarations only) are not part of this model. Neither is `src/loaders/index.js`, with its `resolvePaths`, `resolvePathDelimiter` and `resolveProcessEnv`.
- The four-source merge engine is not among the modelled files.
- `Number` text parsing, number printing, `JSON.parse` and the URL constructor are uninterpreted functions in `JsValue.Runtime`. The number type is `real`, and NaN is the absence of a result.
- `JsValue.Value` has no arrays, functions, symbols or bigints, and a coercion key is a string: `String()` of a symbol key is not modelled.
- Strings.ToLower: maps only ASCII letters. Full Unicode case mapping is left out because only "true" and "false" are compared against.
- SsmLoader.StripPath: strips the path and one delimiter as literal text. The source builds an unescaped regular expression, where metacharacters in the path or delimiter (such as `.`) match more, and for a multi-character delimiter `?` makes only its last character optional. The two agree whenever the delimiter is one character and neither it nor the path holds a regular-expression metacharacter. The describe strategy's begins-with filter (`src/loaders/ssm.ts:74`) can return names on which they differ.
- SsmLoader.LodashPath: splits a key on `.` only. lodash also parses brackets and quotes, and creates arrays for numeric segments; prototype keys such as `__proto__` are ordinary segments here. The tree is string-keyed throughout.
- Plain-object semantics are modelled as maps. Inherited properties seen by `in` (for example `"toString" in process.env` in `src/index.ts:22`) are left out.
- LibParams.GetParamsFromEnv: treats `found` as an ordinary map. The source adds each entry with `Object.defineProperty` (`src/lib/index.ts:22-25`), which makes it non-enumerable as well as non-writable: `Object.keys(found)` at line 32 is always empty, and an object spread of `found` copies nothing.
- LibParams.GetParamsFromSsm: takes the prefix as a string, as the declared options type does. An undefined prefix, which makes `options.prefix.length` throw at lines 58 and 64, is not modelled.
- Strings: a `char` is a Unicode scalar value, while JavaScript indexes UTF-16 code units. Indexing within surrogate pairs (characters outside the Basic Multilingual Plane) is not modelled.
- `.env` and `.tfvars` parsing, `fs.readFileSync`, `path.join`, `path.resolve` and `process.cwd()` are oracles (`ReadOutcome`, `Platform`). A `dotenv`/`tfvar` option of a type other than boolean or string is not modelled.
- Pagination.Paginate: a run is finite by construction, because the replies form an inductive `Chain` that ends at a page without a token or at a failed request. The source keeps requesting while `NextToken` is set (`src/loaders/ssm.ts:60-62` and `:77-79`), so a store that returns tokens forever, or a request that never settles, leaves `loadSsmParams` unresolved; that non-termination is not modelled.
- Pagination.Chunk: does not state the number of chunks. The count follows from the stated sizes and concatenation but is not proved.
- ParamsCache.GetParams: treats both lookups as opaque functions, because the functions `src/index.ts` calls do not match the signatures in `src/lib/index.ts`. Each lookup is handed the running result and the options object. It may throw, and it hands back the options as it left them. Its found values are taken to be ordinary, enumerable entries.

## Findings

| source | as written | input that shows it | evidently intended | confidence | as-written member | corrected member |
|---|---|---|---|---|---|---|
| src/lib/index.ts:45-48 | a prefix that starts with `'/'` and already ends with `'/'` fails the first condition and gets `'.'` appended by the second | `'/app/'` becomes `'/app/.'`, so name `x` is requested as `/app/.x` (`LibParams.AsWrittenRequestsDottedNames`). Because `options.prefix` is updated in place, `'/app'` becomes `'/app/'` on one call and `'/app/.'` on the next | a slash-rooted prefix already ending in `'/'` is left alone, so normalising is idempotent (`LibParams.NormalisePrefixIdempotent`) | medium, not executed | LibParams.AsWrittenBreaksSlashPrefix | LibParams.NormalisePrefix |

=== FILE: coercion.dfy ===
/** The coercion layer: a container of untyped values hands out one
    `Coercion` per key; a `Coercion` applies its default to a nullish value,
    enforces `required`, then converts to the requested type or fails. */
module Coercions {
  import opened Wrappers
  import opened Strings
  import opened JsValue

  /** The errors the `asX` conversions throw; `Message` renders their text. */
  datatype CoercionError =
    | MissingRequired(key: string)
    | InvalidBoolean(key: string, shown: string)
    | InvalidNumber(key: string, shown: string)
    | InvalidPort(key: string, shown: string)
    | InvalidJson(key: string, shown: string)
    | InvalidEnum(key: string, allowed: seq<string>, shown: string)
    | InvalidUrl(key: string, shown: string, reason: string)
    | Rethrown(message: string)

  function Message(e: CoercionError): string
  {
    match e
    case MissingRequired(k) => "Missing required environment variable: " + k
    case InvalidBoolean(k, v) => "Invalid boolean value for " + k + ": " + v
    case InvalidNumber(k, v) => "Invalid number value for " + k + ": " + v
    case InvalidPort(k, v) => "Invalid port number for " + k + ": " + v
    case InvalidJson(k, v) => "Invalid JSON object for " + k + ": " + v
    case InvalidEnum(k, allowed, v) =>
      "Invalid value for " + k + ". Expected one of " + Join(allowed, ", ") + ", but got: " + v
    case InvalidUrl(k, v, reason) => "Invalid URL string for " + k + ": " + v + ": " + reason
    case Rethrown(m) => m
  }

  /** The builder for one key: the raw value, the `required` flag and the default. */
  datatype Coercion = Coercion(key: string, value: Value, isRequired: bool, defaultValue: Value)

  /** A container over a read-only source of untyped values. */
  datatype Container = Container(source: map<string, Value>)

  /** `new Coercion(key, value)`: not required, no default. */
  function Wrap(key: string, value: Value): Coercion
  {
    Coercion(key, value, false, Undefined)
  }

  /** `container.get(key)`: wraps the source's value at `key` (undefined when absent). */
  function Get(c: Container, key: string): (r: Coercion)
    ensures r.key == key && !r.isRequired && r.defaultValue.Undefined?
    ensures key in c.source ==> r.value == c.source[key]
    ensures key !in c.source ==> r.value.Undefined?
  {
    Wrap(key, if key in c.source then c.source[key] else Undefined)
  }

  /** `required(condition)`: sets the flag to `condition`, replacing any earlier setting. */
  function Required(c: Coercion, condition: bool): (r: Coercion)
    ensures r.isRequired == condition
    ensures r.key == c.key && r.value == c.value && r.defaultValue == c.defaultValue
  {
    c.(isRequired := condition)
  }

  /** `default(d)`: sets the fallback value, replacing any earlier one. */
  function Default(c: Coercion, d: Value): (r: Coercion)
    ensures r.defaultValue == d
    ensures r.key == c.key && r.value == c.value && r.isRequired == c.isRequired
  {
    c.(defaultValue := d)
  }

  /** The value after defaulting: the default replaces only a nullish raw
      value, and a value still nullish fails when required. */
  function GetValue(c: Coercion): (r: Result<Value, CoercionError>)
    ensures !IsNullish(c.value) ==> r == Ok(c.value)
    ensures IsNullish(c.value) && !IsNullish(c.defaultValue) ==> r == Ok(c.defaultValue)
    ensures r.Err? <==> c.isRequired && IsNullish(c.value) && IsNullish(c.defaultValue)
    ensures r.Err? ==> r.error == MissingRequired(c.key)
    ensures r.Ok? && IsNullish(r.value) ==> r.value == c.defaultValue
    ensures IsNullish(c.value) && !c.isRequired ==> r == Ok(c.defaultValue)
  {
    var v := if IsNullish(c.value) then c.defaultValue else c.value;
    if IsNullish(v) && c.isRequired then Err(MissingRequired(c.key)) else Ok(v)
  }

  /** `asString`: nullish passes through, anything else is stringified. */
  function AsString(rt: Runtime, c: Coercion): (r: Result<Value, CoercionError>)
    ensures r.Err? <==> GetValue(c).Err?
    ensures r.Err? ==> r.error == MissingRequired(c.key)
    ensures r.Ok? ==> IsNullish(r.value) || r.value.Str?
    ensures r.Ok? && IsNullish(r.value) ==> r == GetValue(c)
    ensures GetValue(c).Ok? && IsNullish(GetValue(c).value) ==> r == GetValue(c)
    ensures GetValue(c).Ok? && !IsNullish(GetValue(c).value) ==> r == Ok(Str(ToStr(rt, GetValue(c).value)))
  {
    var v :- GetValue(c);
    if IsNullish(v) then Ok(v) else Ok(Str(ToStr(rt, v)))
  }

  /** `asBool`: a native boolean as is, or `"true"`/`"false"` in any letter case. */
  function AsBool(rt: Runtime, c: Coercion): (r: Result<bool, CoercionError>)
    ensures r == Ok(true) <==>
      GetValue(c).Ok? && (GetValue(c).value == Bool(true) ||
                          (GetValue(c).value.Str? && IsCaseVariant(GetValue(c).value.s, "true")))
    ensures r == Ok(false) <==>
      GetValue(c).Ok? && (GetValue(c).value == Bool(false) ||
                          (GetValue(c).value.Str? && IsCaseVariant(GetValue(c).value.s, "false")))
    ensures r.Err? && GetValue(c).Ok? ==> r.error == InvalidBoolean(c.key, ToStr(rt, GetValue(c).value))
    ensures GetValue(c).Err? ==> r == Err(MissingRequired(c.key))
  {
    var v :- GetValue(c);
    if v.Bool? then Ok(v.b)
    else if v.Str? then
      ToLowerMatchesCaseVariant(v.s, "true");
      ToLowerMatchesCaseVariant(v.s, "false");
      var lower := ToLower(v.s);
      if lower == "true" then Ok(true)
      else if lower == "false" then Ok(false)
      else Err(InvalidBoolean(c.key, ToStr(rt, v)))
    else Err(InvalidBoolean(c.key, ToStr(rt, v)))
  }

  /** `asNumber`: `Number(value)`, failing on NaN. */
  function AsNumber(rt: Runtime, c: Coercion): (r: Result<real, CoercionError>)
    ensures r.Ok? <==> GetValue(c).Ok? && ToNumber(rt, GetValue(c).value).Some?
    ensures r.Ok? ==> r.value == ToNumber(rt, GetValue(c).value).value
    ensures r.Err? && GetValue(c).Ok? ==> r.error == InvalidNumber(c.key, ToStr(rt, GetValue(c).value))
    ensures GetValue(c).Err? ==> r == Err(MissingRequired(c.key))
  {
    var v :- GetValue(c);
    match ToNumber(rt, v)
    case None => Err(InvalidNumber(c.key, ToStr(rt, v)))
    case Some(n) => Ok(n)
  }

  /** The inclusive TCP/UDP port range checked by `asPortNumber`. */
  predicate InPortRange(n: real) {
    1.0 <= n <= 65535.0
  }

  /** `asPortNumber`: `asNumber`, then the inclusive range [1, 65535]. */
  function AsPortNumber(rt: Runtime, c: Coercion): (r: Result<real, CoercionError>)
    ensures r.Ok? <==> AsNumber(rt, c).Ok? && InPortRange(AsNumber(rt, c).value)
    ensures r.Ok? ==> r == AsNumber(rt, c)
    ensures AsNumber(rt, c).Ok? && !InPortRange(AsNumber(rt, c).value) ==>
      r == Err(InvalidPort(c.key, rt.formatNumber(AsNumber(rt, c).value)))
    ensures AsNumber(rt, c).Err? ==> r == AsNumber(rt, c)
  {
    var n :- AsNumber(rt, c);
    if n < 1.0 || n > 65535.0 then Err(InvalidPort(c.key, rt.formatNumber(n))) else Ok(n)
  }

  /** `asJsonObject`: anything of `typeof 'object'` (null included) as is,
      a string through `JSON.parse`, everything else rejected. */
  function AsJsonObject(rt: Runtime, c: Coercion): (r: Result<Value, CoercionError>)
    ensures GetValue(c).Err? ==> r == Err(MissingRequired(c.key))
    ensures GetValue(c).Ok? && IsObjectType(GetValue(c).value) ==> r == GetValue(c)
    ensures GetValue(c).Ok? && GetValue(c).value.Str? ==>
      (r.Ok? <==> rt.parseJson(GetValue(c).value.s).Some?)
    ensures GetValue(c).Ok? && GetValue(c).value.Str? && r.Ok? ==>
      r.value == rt.parseJson(GetValue(c).value.s).value
    ensures GetValue(c).Ok? && !IsObjectType(GetValue(c).value) && r.Err? ==>
      r.error == InvalidJson(c.key, ToStr(rt, GetValue(c).value))
    ensures GetValue(c).Ok? && !IsObjectType(GetValue(c).value) && !GetValue(c).value.Str? ==> r.Err?
  {
    var v :- GetValue(c);
    if IsObjectType(v) then Ok(v)
    else if v.Str? then
      match rt.parseJson(v.s)
      case Some(parsed) => Ok(parsed)
      case None => Err(InvalidJson(c.key, v.s))
    else Err(InvalidJson(c.key, ToStr(rt, v)))
  }

  /** `asEnum(allowed)`: the string form of the value, if it is one of `allowed`. */
  function AsEnum(rt: Runtime, c: Coercion, allowed: seq<string>): (r: Result<string, CoercionError>)
    ensures r.Ok? <==> AsString(rt, c).Ok? && AsString(rt, c).value.Str? && AsString(rt, c).value.s in allowed
    ensures r.Ok? ==> r.value in allowed && AsString(rt, c) == Ok(Str(r.value))
    ensures AsString(rt, c).Ok? && r.Err? ==>
      r.error == InvalidEnum(c.key, allowed, ToStr(rt, AsString(rt, c).value))
    ensures AsString(rt, c).Err? ==> r == Err(MissingRequired(c.key))
  {
    var v :- AsString(rt, c);
    if v.Str? && v.s in allowed then Ok(v.s) else Err(InvalidEnum(c.key, allowed, ToStr(rt, v)))
  }

  /** The URL constructor's outcome for the string form of `asString`'s
      value (`new URL(undefined)` parses the text "undefined"). */
  function UrlOf(rt: Runtime, v: Value): UrlOutcome
  {
    rt.parseUrl(ToStr(rt, v))
  }

  /** `asUrlString`: the `asString` value, once the URL constructor accepts it. */
  function AsUrlString(rt: Runtime, c: Coercion): (r: Result<Value, CoercionError>)
    ensures r.Ok? <==> AsString(rt, c).Ok? && UrlOf(rt, AsString(rt, c).value).Parsed?
    ensures r.Ok? ==> r == AsString(rt, c)
    ensures AsString(rt, c).Ok? && UrlOf(rt, AsString(rt, c).value).SyntaxError? ==>
      r == Err(InvalidUrl(c.key, ToStr(rt, AsString(rt, c).value), UrlOf(rt, AsString(rt, c).value).message))
    ensures AsString(rt, c).Ok? && UrlOf(rt, AsString(rt, c).value).OtherError? ==>
      r == Err(Rethrown(UrlOf(rt, AsString(rt, c).value).message))
    ensures AsString(rt, c).Err? ==> r == Err(MissingRequired(c.key))
  {
    var v :- AsString(rt, c);
    match UrlOf(rt, v)
    case Parsed(_) => Ok(v)
    case SyntaxError(m) => Err(InvalidUrl(c.key, ToStr(rt, v), m))
    case OtherError(m) => Err(Rethrown(m))
  }

  /** `asUrlObject`: the URL the constructor builds from the `asString` value. */
  function AsUrlObject(rt: Runtime, c: Coercion): (r: Result<Url, CoercionError>)
    ensures r.Ok? <==> AsUrlString(rt, c).Ok?
    ensures r.Ok? ==> UrlOf(rt, AsString(rt, c).value) == Parsed(r.value)
    ensures r.Err? ==> AsUrlString(rt, c) == Err(r.error)
  {
    var v :- AsString(rt, c);
    match UrlOf(rt, v)
    case Parsed(u) => Ok(u)
    case SyntaxError(m) => Err(InvalidUrl(c.key, ToStr(rt, v), m))
    case OtherError(m) => Err(Rethrown(m))
  }

  // ---------------------------------------------------------------------
  // Properties relating the builder steps and the conversions.
  // ---------------------------------------------------------------------

  /** A default never replaces a present value, including `""`, `0` and `false`. */
  lemma DefaultOnlyWhenNullish(c: Coercion, d: Value)
    ensures !IsNullish(c.value) ==> GetValue(Default(c, d)) == Ok(c.value)
    ensures IsNullish(c.value) && !IsNullish(d) ==> GetValue(Default(c, d)) == Ok(d)
    ensures GetValue(Default(Wrap(c.key, Str("")), d)) == Ok(Str(""))
    ensures GetValue(Default(Wrap(c.key, Num(0.0)), d)) == Ok(Num(0.0))
    ensures GetValue(Default(Wrap(c.key, Bool(false)), d)) == Ok(Bool(false))
  {
  }

  /** A required key that is still nullish after defaulting makes every
      conversion fail with the missing-variable error; `required(false)`
      takes that failure away again. */
  lemma RequiredMissingFailsEveryConversion(rt: Runtime, c: Coercion, allowed: seq<string>)
    requires IsNullish(c.value) && IsNullish(c.defaultValue)
    ensures var e, r := MissingRequired(c.key), Required(c, true);
      && AsString(rt, r) == Err(e) && AsBool(rt, r) == Err(e) && AsNumber(rt, r) == Err(e)
      && AsPortNumber(rt, r) == Err(e) && AsJsonObject(rt, r) == Err(e)
      && AsEnum(rt, r, allowed) == Err(e) && AsUrlString(rt, r) == Err(e) && AsUrlObject(rt, r) == Err(e)
    ensures GetValue(Required(Required(c, true), false)) == Ok(c.defaultValue)
  {
  }

  /** `asString` is stable: coercing a string it produced yields that string
      again. A nullish result is not kept as is: re-wrapped without a
      default, `null` turns into the default `undefined`. */
  lemma AsStringIdempotent(rt: Runtime, c: Coercion, k: string)
    requires AsString(rt, c).Ok?
    ensures AsString(rt, c).value.Str? ==> AsString(rt, Wrap(k, AsString(rt, c).value)) == AsString(rt, c)
    ensures IsNullish(AsString(rt, c).value) ==> AsString(rt, Wrap(k, AsString(rt, c).value)) == Ok(Undefined)
  {
  }

  /** The port check accepts exactly the inclusive range: 1 and 65535 pass,
      0 and 65536 fail. */
  lemma PortBoundaries(rt: Runtime, k: string)
    ensures AsPortNumber(rt, Wrap(k, Num(1.0))) == Ok(1.0)
    ensures AsPortNumber(rt, Wrap(k, Num(65535.0))) == Ok(65535.0)
    ensures AsPortNumber(rt, Wrap(k, Num(0.0))).Err?
    ensures AsPortNumber(rt, Wrap(k, Num(65536.0))).Err?
  {
  }

  /** Letter case is ignored by `asBool`; other strings, numbers and an
      absent optional value are all invalid booleans. */
  lemma BoolSpellings(rt: Runtime, k: string)
    ensures AsBool(rt, Wrap(k, Str("FALSE"))) == Ok(false)
    ensures AsBool(rt, Wrap(k, Str("TrUe"))) == Ok(true)
    ensures AsBool(rt, Wrap(k, Str("notabool"))) == Err(InvalidBoolean(k, "notabool"))
    ensures AsBool(rt, Wrap(k, Num(1.0))).Err?
    ensures AsBool(rt, Wrap(k, Undefined)) == Err(InvalidBoolean(k, "undefined"))
  {
    assert IsCaseVariant("FALSE", "false");
    assert IsCaseVariant("TrUe", "true");
    assert !IsCaseVariant("notabool", "true") && !IsCaseVariant("notabool", "false");
  }

  /** Each failure's message starts with the phrase callers match on. */
  lemma MessagesNameTheFailure(e: CoercionError)
    ensures e.MissingRequired? ==> StartsWith(Message(e), "Missing required environment variable")
    ensures e.InvalidBoolean? ==> StartsWith(Message(e), "Invalid boolean value")
    ensures e.InvalidNumber? ==> StartsWith(Message(e), "Invalid number value")
    ensures e.InvalidPort? ==> StartsWith(Message(e), "Invalid port number")
    ensures e.InvalidJson? ==> StartsWith(Message(e), "Invalid JSON object")
    ensures e.InvalidEnum? ==> StartsWith(Message(e), "Invalid value for")
    ensures e.InvalidUrl? ==> StartsWith(Message(e), "Invalid URL string")
  {
  }

  /** `get(key)` reads exactly the source's entry at `key`. */
  lemma GetReadsSource(rt: Runtime, c: Container, key: string)
    ensures key in c.source && c.source[key].Str? ==> AsString(rt, Get(c, key)) == Ok(c.source[key])
    ensures key !in c.source ==> AsString(rt, Get(c, key)) == Ok(Undefined)
  {
  }
}

=== FILE: dotenv.dfy ===
/** The `.env` file loader: which file to read (`FileSources.Load` reads it). */
module DotEnv {
  import opened Wrappers
  import opened FileSources

  /** The `dotenv` option: absent, a flag, or a file name. */
  datatype DotEnvOption = Unset | Flag(on: bool) | File(name: string)

  const EnvKey := "ENV_SSM_DOTENV"

  /** `resolveDotEnv`: the file to read, if any. */
  function ResolveDotEnv(option: DotEnvOption, env: map<string, string>, platform: Platform): (r: Option<string>)
    ensures option.Unset? && EnvKey in env ==> r == Some(platform.join(platform.cwd, env[EnvKey]))
    ensures option.File? ==> r == Some(platform.join(platform.cwd, option.name))
    ensures option == Flag(true) ==> r == Some(platform.join(platform.cwd, ".env"))
    ensures r.None? <==> option == Flag(false) || (option.Unset? && EnvKey !in env)
  {
    match option
    case Unset => if EnvKey in env then Some(platform.join(platform.cwd, env[EnvKey])) else None
    case File(name) => Some(platform.join(platform.cwd, name))
    case Flag(on) => if on then Some(platform.join(platform.cwd, ".env")) else None
  }

  /** Only an absent option consults the environment variable: an explicit
      option, a file name in particular, takes precedence over it. */
  lemma ExplicitOptionIgnoresEnv(option: DotEnvOption, env1: map<string, string>, env2: map<string, string>, platform: Platform)
    requires !option.Unset?
    ensures ResolveDotEnv(option, env1, platform) == ResolveDotEnv(option, env2, platform)
  {
  }
}

=== FILE: env_ssm.dfy ===
/** The single-request loader (`EnvSsm`): one recursive by-path request per
    configured path, each parameter name trimmed by its path (or an explicit
    trim) and written as a flat key into a container that starts from the
    process environment. */
module EnvSsm {
  import opened Wrappers
  import opened Strings
  import SsmLoader

  type Parameter = SsmLoader.Parameter

  /** A path with an optional explicit part to trim from parameter names. */
  datatype TrimPath = TrimPath(path: string, trim: Option<string>)

  datatype PathInput = Bare(text: string) | Spec(spec: TrimPath)

  datatype PathsOption = One(single: PathInput) | Many(list: seq<PathInput>)

  /** The options object; an absent `trim` or `processEnv` is `None`. */
  datatype Options = Options(paths: PathsOption, trim: Option<bool>, processEnv: Option<bool>)

  /** The accepted inputs: a string, an array of paths, or an options object. */
  datatype Input = FromString(text: string) | FromArray(items: seq<PathInput>) | FromOptions(options: Options)

  datatype Resolved = Resolved(trim: bool, processEnv: bool, paths: seq<TrimPath>)

  /** `resolvePath`: a bare string becomes a path with no explicit trim. */
  function ResolvePath(p: PathInput): (r: TrimPath)
    ensures p.Bare? ==> r == TrimPath(p.text, None)
    ensures p.Spec? ==> r == p.spec
  {
    match p
    case Bare(text) => TrimPath(text, None)
    case Spec(spec) => spec
  }

  /** A string or an array is taken as the `paths` of otherwise empty options. */
  function AsOptions(input: Input): (o: Options)
    ensures !input.FromOptions? ==> o.trim.None? && o.processEnv.None?
    ensures input.FromString? ==> o.paths == One(Bare(input.text))
    ensures input.FromArray? ==> o.paths == Many(input.items)
    ensures input.FromOptions? ==> o == input.options
  {
    match input
    case FromString(text) => Options(One(Bare(text)), None, None)
    case FromArray(items) => Options(Many(items), None, None)
    case FromOptions(options) => options
  }

  /** `resolveOptions`: both flags default to true when absent, and the paths
      become a list of trim paths in their given order. */
  function ResolveOptions(o: Options): (r: Resolved)
    ensures r.trim == (o.trim != Some(false))
    ensures r.processEnv == (o.processEnv != Some(false))
    ensures o.paths.One? ==> r.paths == [ResolvePath(o.paths.single)]
    ensures o.paths.Many? ==> |r.paths| == |o.paths.list| &&
                              forall i :: 0 <= i < |r.paths| ==> r.paths[i] == ResolvePath(o.paths.list[i])
  {
    var paths := match o.paths
      case One(p) => [ResolvePath(p)]
      case Many(ps) => seq(|ps|, i requires 0 <= i < |ps| => ResolvePath(ps[i]));
    Resolved(o.trim.GetOr(true), o.processEnv.GetOr(true), paths)
  }

  /** The reply to the single request made for a path (a continuation token
      in it is never followed). */
  datatype Reply = Answered(parameters: Option<seq<Parameter>>) | Failed(message: string)

  /** A returned parameter with the path entry it was fetched for. */
  datatype Fetched = Fetched(origin: TrimPath, name: Option<string>, value: Option<string>)

  /** What one path contributes: its parameters, or nothing when the request failed. */
  function FromPath(p: TrimPath, request: string -> Reply): (r: seq<Fetched>)
    ensures forall i :: 0 <= i < |r| ==> r[i].origin == p
    ensures request(p.path).Failed? ==> r == []
    ensures request(p.path).Answered? ==>
              var items := request(p.path).parameters.GetOr([]);
              |r| == |items| && forall i :: 0 <= i < |r| ==> r[i].name == items[i].name && r[i].value == items[i].value
  {
    match request(p.path)
    case Failed(_) => []
    case Answered(ps) =>
      var items := ps.GetOr([]);
      seq(|items|, i requires 0 <= i < |items| => Fetched(p, items[i].name, items[i].value))
  }

  /** The per-path results concatenated in path order. */
  function Fetch(paths: seq<TrimPath>, request: string -> Reply): (r: seq<Fetched>)
    ensures forall i :: 0 <= i < |r| ==> r[i].origin in paths
    decreases |paths|
  {
    if |paths| == 0 then []
    else
      var rest := Fetch(paths[1..], request);
      assert forall i :: 0 <= i < |rest| ==> rest[i].origin in paths by {
        forall i | 0 <= i < |rest| ensures rest[i].origin in paths {
          var k :| 0 <= k < |paths[1..]| && paths[1..][k] == rest[i].origin;
          assert paths[k + 1] == rest[i].origin;
        }
      }
      FromPath(paths[0], request) + rest
  }

  lemma {:induction false} FetchAppend(a: seq<TrimPath>, b: seq<TrimPath>, request: string -> Reply)
    ensures Fetch(a + b, request) == Fetch(a, request) + Fetch(b, request)
    decreases |a|
  {
    if |a| > 0 {
      assert (a + b)[1..] == a[1..] + b;
      FetchAppend(a[1..], b, request);
    } else {
      assert a + b == b;
    }
  }

  /** A path whose request fails drops out; the other paths' parameters stay, in order. */
  lemma FailedPathContributesNothing(before: seq<TrimPath>, p: TrimPath, after: seq<TrimPath>, request: string -> Reply)
    requires request(p.path).Failed?
    ensures Fetch(before + [p] + after, request) == Fetch(before, request) + Fetch(after, request)
  {
    FetchAppend(before + [p], after, request);
    FetchAppend(before, [p], request);
    assert [p][0] == p && [p][1..] == [];
    assert Fetch([p], request) == [];
    assert Fetch(before, request) + [] == Fetch(before, request);
  }

  /** The text removed from the names of a path's parameters: the explicit
      trim, else (when trimming is on) the path itself, with a `'/'`
      appended unless it already ends in one. */
  function TrimMatch(p: TrimPath, trim: bool): (m: Option<string>)
    ensures m.Some? <==> p.trim.Some? || trim
    ensures m.Some? ==> EndsWith(m.value, "/")
    ensures p.trim.Some? && EndsWith(p.trim.value, "/") ==> m.value == p.trim.value
    ensures p.trim.Some? && !EndsWith(p.trim.value, "/") ==> m.value == p.trim.value + "/"
    ensures p.trim.None? && trim && EndsWith(p.path, "/") ==> m.value == p.path
    ensures p.trim.None? && trim && !EndsWith(p.path, "/") ==> m.value == p.path + "/"
  {
    var base := if p.trim.Some? then p.trim else if trim then Some(p.path) else None;
    match base
    case None => None
    case Some(b) =>
      if EndsWith(b, "/") then Some(b)
      else
        assert (b + "/")[|b + "/"| - 1..] == "/";
        Some(b + "/")
  }

  /** The container key of a named parameter: its name with the first
      occurrence of the trim match removed (or the whole name when nothing is trimmed). */
  function KeyOf(f: Fetched, trim: bool): (k: string)
    requires f.name.Some?
    ensures TrimMatch(f.origin, trim).None? ==> k == f.name.value
    ensures var m := TrimMatch(f.origin, trim);
            m.Some? && StartsWith(f.name.value, m.value) ==> k == f.name.value[|m.value|..]
    ensures var m := TrimMatch(f.origin, trim);
            m.Some? && (forall j :: 0 <= j <= |f.name.value| ==> !OccursAt(f.name.value, m.value, j)) ==>
              k == f.name.value
    ensures var m := TrimMatch(f.origin, trim);
            m.Some? ==> forall i: nat ::
              OccursAt(f.name.value, m.value, i) && (forall j :: 0 <= j < i ==> !OccursAt(f.name.value, m.value, j)) ==>
                k == f.name.value[..i] + f.name.value[i + |m.value|..]
  {
    match TrimMatch(f.origin, trim)
    case None => f.name.value
    case Some(m) =>
      assert StartsWith(f.name.value, m) ==> OccursAt(f.name.value, m, 0);
      RemoveFirst(f.name.value, m)
  }

  /** A name directly under its path (trimming on, no explicit trim, path
      without a trailing slash) is keyed by the part after the path. */
  lemma KeyUnderPath(path: string, rest: string, value: Option<string>)
    requires !EndsWith(path, "/")
    ensures KeyOf(Fetched(TrimPath(path, None), Some(path + "/" + rest), value), true) == rest
  {
    assert path + "/" + rest == (path + "/") + rest;
    RemoveLeadingPattern(path + "/", rest);
  }

  /** With trimming off and no explicit trim, the name is the key. */
  lemma UntrimmedKeepsName(path: string, name: string, value: Option<string>)
    ensures KeyOf(Fetched(TrimPath(path, None), Some(name), value), false) == name
  {
  }

  /** The match is removed wherever it first occurs, not only at the start:
      an explicit trim `/b` turns `/a/b/c` into `/ac`. */
  lemma TrimRemovesFirstOccurrenceAnywhere(value: Option<string>)
    ensures KeyOf(Fetched(TrimPath("/a", Some("/b")), Some("/a/b/c"), value), true) == "/ac"
  {
    var s, m := "/a/b/c", "/b/";
    assert TrimMatch(TrimPath("/a", Some("/b")), true) == Some(m) by {
      assert !EndsWith("/b", "/") by { assert "/b"[1..] != "/"; }
      assert "/b" + "/" == m;
    }
    assert OccursAt(s, m, 2) by { assert s[2..5] == m; }
    assert !OccursAt(s, m, 0) by { assert s[1] == 'a'; }
    assert !OccursAt(s, m, 1) by { assert s[1] == 'a'; }
    assert s[..2] + s[5..] == "/ac";
  }

  /** One step of the reduce: a parameter without a name is skipped;
      otherwise its key is (over)written with its value. */
  function Step(agg: map<string, Option<string>>, f: Fetched, trim: bool): map<string, Option<string>>
  {
    if f.name.None? then agg else agg[KeyOf(f, trim) := f.value]
  }

  /** The reduce over all fetched parameters, in order. */
  function Combine(agg: map<string, Option<string>>, fs: seq<Fetched>, trim: bool): map<string, Option<string>>
    decreases |fs|
  {
    if |fs| == 0 then agg else Combine(Step(agg, fs[0], trim), fs[1..], trim)
  }

  /** Parameter `f` writes key `k`. */
  predicate Writes(f: Fetched, trim: bool, k: string) {
    f.name.Some? && KeyOf(f, trim) == k
  }

  /** Reference definition of the outcome for one key: the value of the last
      named parameter keyed `k`, if there is one. */
  function LastWrite(fs: seq<Fetched>, trim: bool, k: string): (r: Option<Option<string>>)
    ensures r.None? ==> forall i :: 0 <= i < |fs| ==> !Writes(fs[i], trim, k)
    ensures r.Some? ==> exists i :: 0 <= i < |fs| && Writes(fs[i], trim, k) && fs[i].value == r.value &&
                                    forall j :: i < j < |fs| ==> !Writes(fs[j], trim, k)
    decreases |fs|
  {
    if |fs| == 0 then None
    else
      var init := fs[..|fs| - 1];
      if Writes(fs[|fs| - 1], trim, k) then Some(fs[|fs| - 1].value)
      else
        var r := LastWrite(init, trim, k);
        LastWriteSurvivesSkip(fs, trim, k, r);
        r
  }

  /** A last write to `k` among all but the final parameter stays the last
      write when the final parameter does not write `k`. */
  lemma {:induction false} LastWriteSurvivesSkip(fs: seq<Fetched>, trim: bool, k: string, w: Option<Option<string>>)
    requires |fs| > 0 && !Writes(fs[|fs| - 1], trim, k)
    ensures var init := fs[..|fs| - 1];
            w.Some? && (exists i :: 0 <= i < |init| && Writes(init[i], trim, k) && init[i].value == w.value &&
                                    forall j :: i < j < |init| ==> !Writes(init[j], trim, k)) ==>
              exists i :: 0 <= i < |fs| && Writes(fs[i], trim, k) && fs[i].value == w.value &&
                          forall j :: i < j < |fs| ==> !Writes(fs[j], trim, k)
  {
    var init := fs[..|fs| - 1];
    if w.Some? && exists i :: 0 <= i < |init| && Writes(init[i], trim, k) && init[i].value == w.value &&
                              forall j :: i < j < |init| ==> !Writes(init[j], trim, k) {
      var i :| 0 <= i < |init| && Writes(init[i], trim, k) && init[i].value == w.value &&
               forall j :: i < j < |init| ==> !Writes(init[j], trim, k);
      assert fs[i] == init[i];
      forall j | i < j < |fs| ensures !Writes(fs[j], trim, k) {
        if j < |init| { assert fs[j] == init[j]; }
      }
    }
  }

  lemma {:induction false} CombineSnoc(agg: map<string, Option<string>>, fs: seq<Fetched>, f: Fetched, trim: bool)
    ensures Combine(agg, fs + [f], trim) == Step(Combine(agg, fs, trim), f, trim)
    decreases |fs|
  {
    if |fs| == 0 {
      assert ([f])[1..] == [];
    } else {
      assert (fs + [f])[1..] == fs[1..] + [f];
      CombineSnoc(Step(agg, fs[0], trim), fs[1..], f, trim);
    }
  }

  /** The reduce agrees with the reference: a key holds the value of its last
      write, or its starting value when nothing wrote it, and no other keys appear. */
  lemma {:induction false} CombineIsLastWrite(agg: map<string, Option<string>>, fs: seq<Fetched>, trim: bool, k: string)
    ensures k in Combine(agg, fs, trim) <==> k in agg || LastWrite(fs, trim, k).Some?
    ensures LastWrite(fs, trim, k).Some? ==> Combine(agg, fs, trim)[k] == LastWrite(fs, trim, k).value
    ensures LastWrite(fs, trim, k).None? && k in agg ==> Combine(agg, fs, trim)[k] == agg[k]
    decreases |fs|
  {
    if |fs| > 0 {
      var init, last := fs[..|fs| - 1], fs[|fs| - 1];
      assert init + [last] == fs;
      CombineSnoc(agg, init, last, trim);
      CombineIsLastWrite(agg, init, trim, k);
    }
  }

  /** The container's starting point: the process environment, or nothing. */
  function Initial(env: map<string, string>, processEnv: bool): (r: map<string, Option<string>>)
    ensures processEnv ==> r.Keys == env.Keys && forall k :: k in env ==> r[k] == Some(env[k])
    ensures !processEnv ==> r == map[]
  {
    if processEnv then map k | k in env :: Some(env[k]) else map[]
  }

  /** `EnvSsm(input)`: the container that is handed to the variable reader. */
  function Load(input: Input, env: map<string, string>, request: string -> Reply): map<string, Option<string>>
  {
    var o := ResolveOptions(AsOptions(input));
    Combine(Initial(env, o.processEnv), Fetch(o.paths, request), o.trim)
  }

  /** What the container holds for a key: the last parameter keyed so wins
      over the process environment, which in turn supplies every key no
      parameter wrote (when it is included, the default). */
  lemma LoadContents(input: Input, env: map<string, string>, request: string -> Reply, k: string)
    ensures var o := ResolveOptions(AsOptions(input));
            var w := LastWrite(Fetch(o.paths, request), o.trim, k);
            && (w.Some? ==> k in Load(input, env, request) && Load(input, env, request)[k] == w.value)
            && (w.None? && o.processEnv && k in env ==>
                  k in Load(input, env, request) && Load(input, env, request)[k] == Some(env[k]))
            && (w.None? && (!o.processEnv || k !in env) ==> k !in Load(input, env, request))
  {
    var o := ResolveOptions(AsOptions(input));
    CombineIsLastWrite(Initial(env, o.processEnv), Fetch(o.paths, request), o.trim, k);
  }

  /** A bare string input reads the process environment and trims by the path. */
  lemma StringInputDefaults(s: string)
    ensures ResolveOptions(AsOptions(FromString(s))) == Resolved(true, true, [TrimPath(s, None)])
  {
  }

  /** A parameter `/app/stg/password` under the string input `/app/stg` is
      keyed `password` and overrides a process variable of that name. */
  lemma PasswordExample(env: map<string, string>, request: string -> Reply, pw: string)
    requires request("/app/stg") == Answered(Some([SsmLoader.Parameter(Some("/app/stg/password"), Some(pw))]))
    ensures "password" in Load(FromString("/app/stg"), env, request)
    ensures Load(FromString("/app/stg"), env, request)["password"] == Some(pw)
  {
    var p := TrimPath("/app/stg", None);
    var f := Fetched(p, Some("/app/stg/password"), Some(pw));
    assert "/app/stg/password" == "/app/stg" + "/" + "password";
    KeyUnderPath("/app/stg", "password", Some(pw));
    assert Fetch([p], request) == [f] by {
      assert [p][1..] == [];
    }
    assert LastWrite([f], true, "password") == Some(Some(pw));
    LoadContents(FromString("/app/stg"), env, request, "password");
  }
}

=== FILE: file_sources.dfy ===
/** What the file loaders share: the platform calls they make, the outcome
    of reading and parsing a file, and the policy that a missing file is an
    empty container while every other failure propagates. */
module FileSources {
  import opened Wrappers

  /** The working directory and the path functions, as opaque values. */
  datatype Platform = Platform(
    cwd: string,
    join: (string, string) -> string,
    resolve: (string, string) -> string)

  /** A thrown value, seen through its `code` property (absent for most errors). */
  datatype FsError = FsError(code: Option<string>, message: string)

  /** Reading and parsing one file: the parsed variables, or what was thrown
      (by loading the parser, reading the file or parsing it). */
  datatype ReadOutcome = Parsed(variables: map<string, string>) | ReadFailed(error: FsError)

  const NotFoundCode := "ENOENT"

  /** `loadDotEnv` and `loadTfVar`, which differ only in the parser `read`
      stands for: a missing file yields an empty container; any other
      failure is rethrown unchanged. */
  function Load(read: string -> ReadOutcome, file: string): (r: Result<map<string, string>, FsError>)
    ensures read(file).Parsed? ==> r == Ok(read(file).variables)
    ensures read(file).ReadFailed? && read(file).error.code == Some(NotFoundCode) ==> r == Ok(map[])
    ensures read(file).ReadFailed? && read(file).error.code != Some(NotFoundCode) ==> r == Err(read(file).error)
    ensures r.Err? ==> read(file).ReadFailed? && r.error == read(file).error
  {
    match read(file)
    case Parsed(variables) => Ok(variables)
    case ReadFailed(e) => if e.code == Some(NotFoundCode) then Ok(map[]) else Err(e)
  }
}

=== FILE: js_value.dfy ===
/** The JavaScript values the coercion layer and the path normaliser inspect,
    and the host primitives (`Number`, number printing, `JSON.parse`, `new URL`)
    they call, supplied as an oracle record. */
module JsValue {
  import opened Wrappers

  /** An untyped JavaScript value. Numbers are reals (NaN is not a value here:
      `ToNumber` answers `None` instead), objects are their own enumerable
      properties. */
  datatype Value =
    | Undefined
    | Null
    | Bool(b: bool)
    | Num(n: real)
    | Str(s: string)
    | Obj(fields: map<string, Value>)

  /** `value == null` in JavaScript: true of `null` and `undefined` only. */
  predicate IsNullish(v: Value) {
    v.Undefined? || v.Null?
  }

  /** A parsed URL, identified by its serialisation. */
  datatype Url = Url(href: string)

  /** What `new URL(text)` does: returns, throws a `TypeError` (a syntax
      failure) with a message, or throws something else. */
  datatype UrlOutcome =
    | Parsed(url: Url)
    | SyntaxError(message: string)
    | OtherError(message: string)

  /** The host's primitives, left uninterpreted:
      `parseNumber` is `Number(text)` (`None` for NaN), `formatNumber` is
      `String(n)`, `parseJson` is `JSON.parse` (`None` when it throws) and
      `parseUrl` is the WHATWG URL constructor. */
  datatype Runtime = Runtime(
    parseNumber: string -> Option<real>,
    formatNumber: real -> string,
    parseJson: string -> Option<Value>,
    parseUrl: string -> UrlOutcome)

  /** `String(v)`. */
  function ToStr(rt: Runtime, v: Value): string
  {
    match v
    case Undefined => "undefined"
    case Null => "null"
    case Bool(b) => if b then "true" else "false"
    case Num(n) => rt.formatNumber(n)
    case Str(s) => s
    case Obj(_) => "[object Object]"
  }

  /** `Number(v)`, with `None` standing for NaN. */
  function ToNumber(rt: Runtime, v: Value): Option<real>
  {
    match v
    case Undefined => None
    case Null => Some(0.0)
    case Bool(b) => Some(if b then 1.0 else 0.0)
    case Num(n) => Some(n)
    case Str(s) => rt.parseNumber(s)
    case Obj(_) => None
  }

  /** `typeof v === 'object'`, which JavaScript also answers for `null`. */
  predicate IsObjectType(v: Value) {
    v.Null? || v.Obj?
  }
}

=== FILE: lib_params.dfy ===
/** The older parameter helpers: split requested names into those the
    environment has and those it lacks, and fetch names from the store
    under a normalised prefix. */
module LibParams {
  import opened Wrappers
  import opened Strings
  import SsmLoader

  type Parameter = SsmLoader.Parameter

  /** Values found by name, and the names still missing. */
  datatype ParamsResult = ParamsResult(found: map<string, string>, missing: seq<string>)

  /** The names of `names` that are not keys of `env`, in request order
      (duplicates kept). */
  function Absent(names: seq<string>, env: map<string, string>): (r: seq<string>)
    ensures forall n :: n in r <==> n in names && n !in env
    decreases |names|
  {
    if |names| == 0 then []
    else
      var rest := Absent(names[1..], env);
      assert forall n :: n in names <==> n == names[0] || n in names[1..];
      (if names[0] in env then [] else [names[0]]) + rest
  }

  /** Nothing is absent exactly when every name is a key. */
  lemma {:induction false} AbsentEmpty(names: seq<string>, env: map<string, string>)
    ensures |Absent(names, env)| == 0 <==> forall n :: n in names ==> n in env
    decreases |names|
  {
    if |names| > 0 {
      AbsentEmpty(names[1..], env);
      assert forall n :: n in names <==> n == names[0] || n in names[1..];
    }
  }

  lemma {:induction false} AbsentSnoc(names: seq<string>, n: string, env: map<string, string>)
    ensures Absent(names + [n], env) == Absent(names, env) + (if n in env then [] else [n])
    decreases |names|
  {
    if |names| == 0 {
      assert ([n])[1..] == [];
    } else {
      assert (names + [n])[1..] == names[1..] + [n];
      AbsentSnoc(names[1..], n, env);
    }
  }

  /** `getParamsFromEnv`: each requested name is found, with the
      environment's value, exactly when the environment has it, and
      missing otherwise; the missing names keep their request order. */
  method GetParamsFromEnv(names: seq<string>, env: map<string, string>) returns (r: ParamsResult)
    ensures forall n :: n in r.found <==> n in names && n in env
    ensures forall n :: n in r.found ==> r.found[n] == env[n]
    ensures forall n :: n in names ==> (n in r.found <==> n !in r.missing)
    ensures r.missing == Absent(names, env)
  {
    var found: map<string, string> := map[];
    var missing: seq<string> := [];
    var i := 0;
    while i < |names|
      invariant 0 <= i <= |names|
      invariant forall n :: n in found <==> n in names[..i] && n in env
      invariant forall n :: n in found ==> found[n] == env[n]
      invariant missing == Absent(names[..i], env)
    {
      var n := names[i];
      if n in env {
        found := found[n := env[n]];
      } else {
        missing := missing + [n];
      }
      AbsentSnoc(names[..i], n, env);
      assert names[..i + 1] == names[..i] + [n];
      i := i + 1;
    }
    assert names[..i] == names;
    r := ParamsResult(found, missing);
  }

  // ---------------------------------------------------------------------
  // The prefix.
  // ---------------------------------------------------------------------

  /** Lines 45-48 as written: a slash-rooted prefix that does not end in `'/'`
      gets one; every other non-empty prefix not ending in `'.'` gets a `'.'`,
      including a slash-rooted prefix that already ends in `'/'`. */
  function NormalisePrefixAsWritten(prefix: string): string
  {
    if prefix == "" then prefix
    else if StartsWith(prefix, "/") && !EndsWith(prefix, "/") then prefix + "/"
    else if !EndsWith(prefix, ".") then prefix + "."
    else prefix
  }

  /** As written, `/app/` becomes `/app/.`; and because the options object is
      updated in place, a second call turns the already normalised `/app/`
      into `/app/.` as well. */
  lemma AsWrittenBreaksSlashPrefix()
    ensures NormalisePrefixAsWritten("/app/") == "/app/."
    ensures NormalisePrefixAsWritten("/app") == "/app/"
    ensures NormalisePrefixAsWritten(NormalisePrefixAsWritten("/app")) != NormalisePrefixAsWritten("/app")
  {
    assert EndsWith("/app/", "/");
    assert !EndsWith("/app/", ".");
    assert !EndsWith("/app", "/");
    assert "/app/" + "." != "/app/" by { assert |"/app/" + "."| == 6; }
  }

  /** The corrected normalisation: a non-empty slash-rooted prefix ends up
      ending in `'/'`, any other non-empty prefix in `'.'`, adding at most one
      character; the empty prefix is left alone. */
  function NormalisePrefix(prefix: string): (r: string)
    ensures prefix == "" ==> r == ""
    ensures StartsWith(r, prefix) && |r| <= |prefix| + 1
    ensures prefix != "" && StartsWith(prefix, "/") ==> EndsWith(r, "/")
    ensures prefix != "" && !StartsWith(prefix, "/") ==> EndsWith(r, ".")
  {
    if prefix == "" then prefix
    else if StartsWith(prefix, "/") then
      if EndsWith(prefix, "/") then prefix
      else
        assert (prefix + "/")[..|prefix|] == prefix;
        assert (prefix + "/")[|prefix|..] == "/";
        prefix + "/"
    else if EndsWith(prefix, ".") then prefix
    else
      assert (prefix + ".")[..|prefix|] == prefix;
      assert (prefix + ".")[|prefix|..] == ".";
      prefix + "."
  }

  /** Normalising a normalised prefix changes nothing, so updating the
      options in place is harmless. */
  lemma NormalisePrefixIdempotent(prefix: string)
    ensures NormalisePrefix(NormalisePrefix(prefix)) == NormalisePrefix(prefix)
  {
    var r := NormalisePrefix(prefix);
    if prefix != "" {
      assert r[..|prefix|] == prefix;
      assert r[..1] == prefix[..1];
    }
  }

  /** The correction changes exactly the slash-rooted prefixes that already end in `'/'`. */
  lemma CorrectionScope(prefix: string)
    ensures NormalisePrefixAsWritten(prefix) != NormalisePrefix(prefix) <==>
              StartsWith(prefix, "/") && EndsWith(prefix, "/")
  {
    if StartsWith(prefix, "/") && EndsWith(prefix, "/") {
      assert |NormalisePrefixAsWritten(prefix)| == |prefix| + 1;
    }
  }

  // ---------------------------------------------------------------------
  // Fetching from the store.
  // ---------------------------------------------------------------------

  /** The store's answer to one get-parameters request. */
  datatype Response = Response(parameters: Option<seq<Parameter>>, invalid: Option<seq<string>>)

  datatype Options = Options(prefix: string, region: string)

  /** The store as an oracle from requested names and region to a response,
      or to the error the request is rejected with. */
  type GetParameters = (seq<string>, string) -> Result<Response, string>

  /** The names requested: the prefix followed by each name, in order. */
  function RequestedNames(prefix: string, names: seq<string>): (r: seq<string>)
    ensures |r| == |names|
    ensures forall i :: 0 <= i < |names| ==> r[i] == prefix + names[i]
  {
    seq(|names|, i requires 0 <= i < |names| => prefix + names[i])
  }

  /** A present, non-empty string (JavaScript truthiness of a string field). */
  predicate Truthy(s: Option<string>) {
    s.Some? && s.value != ""
  }

  /** The found map after storing `ps` in order: each parameter with a
      truthy name and value is written under its name minus the first `cut`
      characters. */
  function Stored(ps: seq<Parameter>, cut: nat): map<string, string>
    decreases |ps|
  {
    if |ps| == 0 then map[]
    else
      var m := Stored(ps[..|ps| - 1], cut);
      var p := ps[|ps| - 1];
      if Truthy(p.name) && Truthy(p.value) then m[Substring(p.name.value, cut) := p.value.value] else m
  }

  /** The missing names: the invalid names minus the first `cut` characters, or none. */
  function Unprefixed(invalid: Option<seq<string>>, cut: nat): (r: seq<string>)
    ensures invalid.None? ==> r == []
    ensures invalid.Some? ==> |r| == |invalid.value| &&
                              forall i :: 0 <= i < |r| ==> r[i] == Substring(invalid.value[i], cut)
  {
    match invalid
    case None => []
    case Some(xs) => seq(|xs|, i requires 0 <= i < |xs| => Substring(xs[i], cut))
  }

  /** `getParamsFromSSM`, parameterised by the prefix normalisation of lines
      45-48: `NormalisePrefixAsWritten` is the code as written,
      `NormalisePrefix` the correction. The normalised prefix is written back
      into the caller's options before the request is sent, so `after` holds
      it whether or not the request is rejected; a rejection rejects the
      call with the same error. */
  method GetParamsFromSsm(names: seq<string>, options: Options, normalise: string -> string,
                          getParameters: GetParameters)
    returns (after: Options, r: Result<ParamsResult, string>)
    ensures after == options.(prefix := normalise(options.prefix))
    ensures var reply := getParameters(RequestedNames(after.prefix, names), options.region);
            && (r.Err? <==> reply.Err?)
            && (r.Err? ==> r.error == reply.error)
            && (r.Ok? ==> r.value.found == Stored(reply.value.parameters.GetOr([]), |after.prefix|))
            && (r.Ok? ==> r.value.missing == Unprefixed(reply.value.invalid, |after.prefix|))
  {
    after := options.(prefix := normalise(options.prefix));
    var prefix := after.prefix;
    var reply := getParameters(RequestedNames(prefix, names), options.region);
    if reply.Err? {
      return after, Err(reply.error);
    }
    var ps := reply.value.parameters.GetOr([]);
    var found: map<string, string> := map[];
    var i := 0;
    while i < |ps|
      invariant 0 <= i <= |ps|
      invariant found == Stored(ps[..i], |prefix|)
    {
      assert ps[..i + 1][..i] == ps[..i];
      var p := ps[i];
      if Truthy(p.name) && Truthy(p.value) {
        found := found[Substring(p.name.value, |prefix|) := p.value.value];
      }
      i := i + 1;
    }
    assert ps[..i] == ps;
    r := Ok(ParamsResult(found, Unprefixed(reply.value.invalid, |prefix|)));
  }

  /** What the two normalisations request for the prefix `/app/` and the name
      `x`, and how much they cut off every returned name: as written the
      store is asked for `/app/.x` and six characters are cut; corrected it
      is asked for `/app/x` and five are cut, so `/app/x` comes back as `x`. */
  lemma AsWrittenRequestsDottedNames()
    ensures RequestedNames(NormalisePrefixAsWritten("/app/"), ["x"]) == ["/app/.x"]
    ensures |NormalisePrefixAsWritten("/app/")| == 6
    ensures RequestedNames(NormalisePrefix("/app/"), ["x"]) == ["/app/x"]
    ensures Substring("/app/x", |NormalisePrefix("/app/")|) == "x"
  {
    AsWrittenBreaksSlashPrefix();
    assert EndsWith("/app/", "/") && StartsWith("/app/", "/");
    assert NormalisePrefix("/app/") == "/app/";
    var dotted := RequestedNames("/app/.", ["x"]);
    assert dotted[0] == "/app/." + "x" == "/app/.x";
    var plain := RequestedNames("/app/", ["x"]);
    assert plain[0] == "/app/" + "x" == "/app/x";
    assert "/app/x"[5..] == "x";
  }

  /** Cutting the prefix off a requested name gives back the caller's name. */
  lemma RequestedNameRoundTrip(prefix: string, names: seq<string>, i: nat)
    requires i < |names|
    ensures Substring(RequestedNames(prefix, names)[i], |prefix|) == names[i]
  {
    assert (prefix + names[i])[|prefix|..] == names[i];
  }

  /** A key is found only if some stored parameter carries it. */
  lemma {:induction false} StoredFromTruthy(ps: seq<Parameter>, cut: nat, k: string)
    requires k in Stored(ps, cut)
    ensures exists i :: 0 <= i < |ps| && Truthy(ps[i].name) && Truthy(ps[i].value) &&
                        Substring(ps[i].name.value, cut) == k && Stored(ps, cut)[k] == ps[i].value.value
    decreases |ps|
  {
    var init, p := ps[..|ps| - 1], ps[|ps| - 1];
    if Truthy(p.name) && Truthy(p.value) && Substring(p.name.value, cut) == k {
      assert ps[|ps| - 1] == p;
    } else {
      StoredFromTruthy(init, cut, k);
      var i :| 0 <= i < |init| && Truthy(init[i].name) && Truthy(init[i].value) &&
               Substring(init[i].name.value, cut) == k && Stored(init, cut)[k] == init[i].value.value;
      assert ps[i] == init[i];
    }
  }

  /** Last write wins: a parameter with a truthy name and value is what its
      key holds, provided no later such parameter has the same key. */
  lemma {:induction false} StoredLastWins(ps: seq<Parameter>, cut: nat, i: nat)
    requires i < |ps| && Truthy(ps[i].name) && Truthy(ps[i].value)
    requires forall j :: i < j < |ps| && Truthy(ps[j].name) && Truthy(ps[j].value) ==>
               Substring(ps[j].name.value, cut) != Substring(ps[i].name.value, cut)
    ensures Substring(ps[i].name.value, cut) in Stored(ps, cut)
    ensures Stored(ps, cut)[Substring(ps[i].name.value, cut)] == ps[i].value.value
    decreases |ps|
  {
    if i < |ps| - 1 {
      var init := ps[..|ps| - 1];
      assert init[i] == ps[i];
      assert forall j :: i < j < |init| ==> init[j] == ps[j];
      StoredLastWins(init, cut, i);
    }
  }

  /** A parameter the store returns under the requested name `prefix + n`,
      with a non-empty value, is found under `n`. */
  lemma FoundUnderCallerName(prefix: string, n: string, value: string)
    requires value != ""
    requires prefix + n != ""
    ensures var ps := [SsmLoader.Parameter(Some(prefix + n), Some(value))];
            Stored(ps, |prefix|) == map[n := value]
  {
    var ps := [SsmLoader.Parameter(Some(prefix + n), Some(value))];
    assert ps[..0] == [];
    assert (prefix + n)[|prefix|..] == n;
  }

  /** An empty value is skipped: nothing is stored for it. */
  lemma EmptyValueSkipped(name: string, cut: nat)
    ensures Stored([SsmLoader.Parameter(Some(name), Some(""))], cut) == map[]
  {
    var ps := [SsmLoader.Parameter(Some(name), Some(""))];
    assert ps[..0] == [];
  }
}

=== FILE: pagination.dfy ===
/** Token-driven pagination against the parameter store, and the splitting
    of a name list into request-sized batches. */
module Pagination {
  import opened Wrappers

  /** The store's replies to one paginated run, in request order. A page
      that carries a continuation token is followed by the reply to the
      request sent with that token; the run ends at a page without a token
      or at a failed request. (An omitted `Parameters` list is `None`.)
      Being inductive, a chain is finite: a store that hands out tokens
      forever has no chain. */
  datatype Chain<T> =
    | Next(items: Option<seq<T>>, token: string, rest: Chain<T>)
    | Last(items: Option<seq<T>>)
    | Broken(message: string)

  /** `const { Parameters = [] } = reply`. */
  function ItemsOr<T>(items: Option<seq<T>>): seq<T>
  {
    items.GetOr([])
  }

  /** Every item of every page, in page order; a failure contributes nothing
      and ends the run, keeping the pages before it. */
  function Collected<T>(c: Chain<T>): seq<T>
    decreases c
  {
    match c
    case Next(items, _, rest) => ItemsOr(items) + Collected(rest)
    case Last(items) => ItemsOr(items)
    case Broken(_) => []
  }

  /** A page of a run that is followed by another request: its items and
      the continuation token it carries. */
  datatype Page<T> = Page(items: Option<seq<T>>, token: string)

  /** The run that delivers `pages` and then ends as `tail` does. */
  function Chained<T>(pages: seq<Page<T>>, tail: Chain<T>): Chain<T>
    decreases |pages|
  {
    if |pages| == 0 then tail else Next(pages[0].items, pages[0].token, Chained(pages[1..], tail))
  }

  /** The items of `pages`, in page order, a missing list counting as empty. */
  function PageItems<T>(pages: seq<Page<T>>): seq<T>
    decreases |pages|
  {
    if |pages| == 0 then [] else ItemsOr(pages[0].items) + PageItems(pages[1..])
  }

  /** The items of a run are those of its leading pages followed by those of the rest. */
  lemma {:induction false} CollectedChained<T>(pages: seq<Page<T>>, tail: Chain<T>)
    ensures Collected(Chained(pages, tail)) == PageItems(pages) + Collected(tail)
    decreases |pages|
  {
    if |pages| == 0 {
      assert [] + Collected(tail) == Collected(tail);
    } else {
      CollectedChained(pages[1..], tail);
      assert ItemsOr(pages[0].items) + (PageItems(pages[1..]) + Collected(tail))
          == (ItemsOr(pages[0].items) + PageItems(pages[1..])) + Collected(tail);
    }
  }

  /** The continuation tokens the run receives, in order. */
  function TokensOf<T>(c: Chain<T>): seq<string>
    decreases c
  {
    match c
    case Next(_, token, rest) => [token] + TokensOf(rest)
    case Last(_) => []
    case Broken(_) => []
  }

  /** One paginated run, as an explicit loop: send a request (the first
      without a token, each later one with the token just received),
      append the page's items, and stop at a page without a token or at a
      failure. Returns the items gathered and the token each request carried. */
  method Paginate<T>(chain: Chain<T>) returns (items: seq<T>, sent: seq<Option<string>>)
    ensures items == Collected(chain)
    ensures |sent| == |TokensOf(chain)| + 1
    ensures sent[0] == None
    ensures forall i :: 0 < i < |sent| ==> sent[i] == Some(TokensOf(chain)[i - 1])
  {
    var reply := chain;
    var token: Option<string> := None;
    items := [];
    sent := [];
    while reply.Next?
      invariant items + Collected(reply) == Collected(chain)
      invariant |sent| + |TokensOf(reply)| == |TokensOf(chain)|
      invariant sent + [token] + Wrap(TokensOf(reply)) == [None] + Wrap(TokensOf(chain))
      decreases reply
    {
      WrapCons(reply.token, TokensOf(reply.rest));
      sent := sent + [token];
      items := items + ItemsOr(reply.items);
      token := Some(reply.token);
      reply := reply.rest;
    }
    assert Wrap(TokensOf(reply)) == [];
    sent := sent + [token];
    assert sent == [None] + Wrap(TokensOf(chain));
    match reply {
      case Last(page) => items := items + ItemsOr(page);
      case Broken(_) =>
    }
    WrapIndex(TokensOf(chain));
  }

  /** Each token as the `NextToken` field of the request it is sent with. */
  function Wrap(tokens: seq<string>): (r: seq<Option<string>>)
    ensures |r| == |tokens|
  {
    seq(|tokens|, i requires 0 <= i < |tokens| => Some(tokens[i]))
  }

  lemma WrapCons(token: string, tokens: seq<string>)
    ensures Wrap([token] + tokens) == [Some(token)] + Wrap(tokens)
  {
  }

  lemma WrapIndex(tokens: seq<string>)
    ensures forall i :: 0 < i <= |tokens| ==> ([None] + Wrap(tokens))[i] == Some(tokens[i - 1])
  {
  }

  /** The concatenation of a list of lists (`flat()`). */
  function Concat<T>(xss: seq<seq<T>>): seq<T>
    decreases |xss|
  {
    if |xss| == 0 then [] else xss[0] + Concat(xss[1..])
  }

  lemma {:induction false} ConcatAppend<T>(a: seq<seq<T>>, b: seq<seq<T>>)
    ensures Concat(a + b) == Concat(a) + Concat(b)
    decreases |a|
  {
    if |a| > 0 {
      assert (a + b)[1..] == a[1..] + b;
      ConcatAppend(a[1..], b);
    } else {
      assert a + b == b;
    }
  }

  /** lodash `chunk(xs, size)`: consecutive groups of `size`, the last one
      possibly shorter; no groups at all for an empty list or a size below 1. */
  function Chunk<T>(xs: seq<T>, size: nat): (cs: seq<seq<T>>)
    ensures size == 0 ==> cs == []
    ensures size > 0 ==> Concat(cs) == xs
    ensures forall i :: 0 <= i < |cs| ==> 0 < |cs[i]| <= size
    ensures forall i :: 0 <= i < |cs| - 1 ==> |cs[i]| == size
    decreases |xs|
  {
    if size == 0 || |xs| == 0 then []
    else if |xs| <= size then [xs]
    else
      var rest := Chunk(xs[size..], size);
      assert ([xs[..size]] + rest)[1..] == rest;
      assert xs[..size] + xs[size..] == xs;
      [xs[..size]] + rest
  }
}

=== FILE: params_cache.dfy ===
/** `getParams`: a module-level cache of parameters, refilled from the
    environment and then from the store when an expected name is missing. */
module ParamsCache {
  import opened Wrappers
  import LibParams

  /** The options `getParams` reads; only the prefix matters here. */
  datatype Options = Options(prefix: Option<string>)

  /** The running result handed from step to step. */
  datatype ParamsResult = ParamsResult(expected: seq<string>, found: map<string, string>, missing: seq<string>)

  /** What a lookup leaves behind: its result or the error it threw, and
      the options object as it left it (a lookup may update it in place). */
  datatype LookupReply = LookupReply(outcome: Result<ParamsResult, string>, options: Options)

  /** The two lookups, as `getParams` calls them, over opaque behaviour: the
      environment lookup and the store lookup, each handed the running result
      and the options object. */
  datatype Lookups = Lookups(
    fromEnv: (ParamsResult, Options) -> LookupReply,
    fromSsm: (ParamsResult, Options) -> LookupReply)

  datatype Outcome = Returned(params: map<string, string>) | Threw(message: string)

  /** The cache after a call, the options object as the call left it, and
      what the call returned or threw. */
  datatype Step = Step(cache: map<string, string>, options: Options, outcome: Outcome)

  const UnableMessage := "Unable to retrieve all parameters"

  /** The first loop: each expected name is found in the cache or missing. */
  function Classify(expected: seq<string>, cache: map<string, string>): (r: ParamsResult)
    ensures r.expected == expected
    ensures forall n :: n in r.found <==> n in expected && n in cache
    ensures forall n :: n in r.found ==> r.found[n] == cache[n]
    ensures forall n :: n in r.missing <==> n in expected && n !in cache
    ensures |r.missing| == 0 <==> forall n :: n in expected ==> n in cache
  {
    LibParams.AbsentEmpty(expected, cache);
    ParamsResult(expected, map n | n in expected && n in cache :: cache[n], LibParams.Absent(expected, cache))
  }

  /** A truthy prefix that names a process variable is replaced by that variable's value. */
  function SubstitutePrefix(options: Options, env: map<string, string>): (r: Options)
    ensures options.prefix.Some? && options.prefix.value != "" && options.prefix.value in env ==>
              r.prefix == Some(env[options.prefix.value])
    ensures !(options.prefix.Some? && options.prefix.value != "" && options.prefix.value in env) ==> r == options
  {
    match options.prefix
    case Some(p) => if p != "" && p in env then Options(Some(env[p])) else options
    case None => options
  }

  /** One call of `getParams`. */
  function GetParams(cache: map<string, string>, expected: seq<string>, options: Options,
                     env: map<string, string>, lookups: Lookups): (s: Step)
    ensures s.outcome.Threw? ==> s.cache == cache
    ensures s.outcome.Returned? ==> s.outcome.params == s.cache
    ensures forall k :: k in cache ==> k in s.cache
  {
    var result := Classify(expected, cache);
    if |result.missing| == 0 then Step(cache, options, Returned(cache))
    else
      var envReply := lookups.fromEnv(result, SubstitutePrefix(options, env));
      match envReply.outcome
      case Err(e) => Step(cache, envReply.options, Threw(e))
      case Ok(afterEnv) =>
        if |afterEnv.missing| == 0 then
          var updated := cache + afterEnv.found;
          Step(updated, envReply.options, Returned(updated))
        else
          var ssmReply := lookups.fromSsm(afterEnv, envReply.options);
          match ssmReply.outcome
          case Err(e) => Step(cache, ssmReply.options, Threw(e))
          case Ok(afterSsm) =>
            if |afterSsm.missing| > 0 then Step(cache, ssmReply.options, Threw(UnableMessage))
            else
              var updated := cache + afterSsm.found;
              Step(updated, ssmReply.options, Returned(updated))
  }

  /** When every expected name is cached (in particular for no expected
      names) the cache is returned as it is and neither lookup matters. */
  lemma CachedCallIsPure(cache: map<string, string>, expected: seq<string>, options: Options,
                         env: map<string, string>, l1: Lookups, l2: Lookups)
    requires forall n :: n in expected ==> n in cache
    ensures GetParams(cache, expected, options, env, l1) == Step(cache, options, Returned(cache))
    ensures GetParams(cache, expected, options, env, l1) == GetParams(cache, expected, options, env, l2)
  {
  }

  /** When something is missing, the environment lookup is handed the running
      result and the options with the prefix substituted, and nothing else
      about it matters: two lookups that answer that one call alike give the
      same step. If it throws, or leaves nothing missing, the call ends there
      with the options as that lookup left them. */
  lemma LookupsSeeSubstitutedPrefix(cache: map<string, string>, expected: seq<string>, options: Options,
                                    env: map<string, string>, l1: Lookups, l2: Lookups, n: string)
    requires n in expected && n !in cache
    requires l1.fromEnv(Classify(expected, cache), SubstitutePrefix(options, env)) ==
             l2.fromEnv(Classify(expected, cache), SubstitutePrefix(options, env))
    requires l1.fromSsm == l2.fromSsm
    ensures GetParams(cache, expected, options, env, l1) == GetParams(cache, expected, options, env, l2)
    ensures var reply := l1.fromEnv(Classify(expected, cache), SubstitutePrefix(options, env));
            var s := GetParams(cache, expected, options, env, l1);
            && (reply.outcome.Err? ==> s == Step(cache, reply.options, Threw(reply.outcome.error)))
            && (reply.outcome.Ok? && |reply.outcome.value.missing| == 0 ==>
                  s == Step(cache + reply.outcome.value.found, reply.options, Returned(cache + reply.outcome.value.found)))
  {
    assert n in Classify(expected, cache).missing;
  }

  /** When the environment lookup still leaves names missing, the store
      lookup is handed its result and the options as it left them. A
      rejection is passed on, anything still missing throws the fixed
      message, and in both cases the cache is unchanged; otherwise the cache
      gains the found values, which override. The options are as the store
      lookup left them. */
  lemma StoreLookupOutcome(cache: map<string, string>, expected: seq<string>, options: Options,
                           env: map<string, string>, lookups: Lookups, n: string)
    requires n in expected && n !in cache
    ensures var envReply := lookups.fromEnv(Classify(expected, cache), SubstitutePrefix(options, env));
            var s := GetParams(cache, expected, options, env, lookups);
            envReply.outcome.Ok? && |envReply.outcome.value.missing| > 0 ==>
              var ssmReply := lookups.fromSsm(envReply.outcome.value, envReply.options);
              && s.options == ssmReply.options
              && match ssmReply.outcome
                 case Err(e) => s == Step(cache, ssmReply.options, Threw(e))
                 case Ok(afterSsm) =>
                   && (|afterSsm.missing| > 0 ==> s == Step(cache, ssmReply.options, Threw(UnableMessage)))
                   && (|afterSsm.missing| == 0 ==> s.cache == cache + afterSsm.found && s.outcome == Returned(s.cache))
  {
    assert n in Classify(expected, cache).missing;
  }

  /** On success the cache only gains or overwrites keys: a cached key keeps
      its value unless the call returns and the lookup that ended it found a
      new value for the key. That lookup is the environment lookup when it
      left nothing missing, and the store lookup otherwise; the cache is then
      the old one overridden by exactly that lookup's found map. */
  lemma SuccessOnlyGrows(cache: map<string, string>, expected: seq<string>, options: Options,
                         env: map<string, string>, lookups: Lookups, k: string)
    requires k in cache
    ensures var s := GetParams(cache, expected, options, env, lookups);
            var envReply := lookups.fromEnv(Classify(expected, cache), SubstitutePrefix(options, env));
            s.cache[k] != cache[k] ==>
              && s.outcome.Returned?
              && envReply.outcome.Ok?
              && var afterEnv := envReply.outcome.value;
                 var ssmReply := lookups.fromSsm(afterEnv, envReply.options);
                 if |afterEnv.missing| == 0 then
                   k in afterEnv.found && s.cache == cache + afterEnv.found && s.cache[k] == afterEnv.found[k]
                 else
                   && ssmReply.outcome.Ok?
                   && k in ssmReply.outcome.value.found
                   && s.cache == cache + ssmReply.outcome.value.found
                   && s.cache[k] == ssmReply.outcome.value.found[k]
  {
    var s := GetParams(cache, expected, options, env, lookups);
    if s.cache[k] != cache[k] {
      var result := Classify(expected, cache);
      assert |result.missing| > 0;
      var envReply := lookups.fromEnv(result, SubstitutePrefix(options, env));
      assert envReply.outcome.Ok?;
      var afterEnv := envReply.outcome.value;
      if |afterEnv.missing| == 0 {
        assert s.cache == cache + afterEnv.found;
      } else {
        var ssmReply := lookups.fromSsm(afterEnv, envReply.options);
        assert ssmReply.outcome.Ok?;
        assert s.cache == cache + ssmReply.outcome.value.found;
      }
    }
  }
}

=== FILE: path_ssm.dfy ===
/** Path normalisation: a bare string or a `{ path, delimiter? }` record
    becomes a (path, delimiter) pair whose delimiter defaults to `'/'`. */
module PathSpecs {
  import opened Wrappers
  import opened JsValue

  /** A normalised path: both fields are whatever JavaScript values the
      input carried, except that an undefined delimiter became `'/'`. */
  datatype PathSsm = PathSsm(path: Value, delimiter: Value)

  const DefaultDelimiter: Value := Str("/")

  const NotLikeMessage := "Input must be PathSsmLike (string | { path: string, delimiter?: string })"

  /** The `TypeError` thrown for an input of the wrong shape. */
  datatype TypeError = TypeError(message: string)

  /** `PathSsm.like(v)`: a string, or a non-null object with an own `path` property. */
  predicate Like(v: Value) {
    v.Str? || (v.Obj? && "path" in v.fields)
  }

  /** Reading property `name` of an object: its own value, or undefined. */
  function Property(fields: map<string, Value>, name: string): Value
  {
    if name in fields then fields[name] else Undefined
  }

  /** `new PathSsm(path, delimiter)`: the default parameter `'/'` replaces an
      undefined delimiter and nothing else (a `null` or `""` delimiter stays). */
  function Make(path: Value, delimiter: Value): (r: PathSsm)
    ensures r.path == path
    ensures delimiter.Undefined? ==> r.delimiter == DefaultDelimiter
    ensures !delimiter.Undefined? ==> r.delimiter == delimiter
  {
    PathSsm(path, if delimiter.Undefined? then DefaultDelimiter else delimiter)
  }

  /** `PathSsm.from(value, delimiter)`. A string takes the call's delimiter;
      an object takes its own `delimiter` property and ignores the call's. */
  function From(v: Value, delimiter: Value): (r: Result<PathSsm, TypeError>)
    ensures r.Err? <==> !Like(v)
    ensures r.Err? ==> r.error == TypeError(NotLikeMessage)
    ensures r.Ok? ==> !r.value.delimiter.Undefined?
    ensures v.Str? ==> r == Ok(Make(v, delimiter))
    ensures v.Obj? && r.Ok? ==> r.value.path == v.fields["path"]
    ensures v.Obj? && r.Ok? ==>
              r.value.delimiter == (if "delimiter" in v.fields && !v.fields["delimiter"].Undefined?
                                    then v.fields["delimiter"] else DefaultDelimiter)
  {
    if !Like(v) then Err(TypeError(NotLikeMessage))
    else
      var chosen := if !v.Str? then Property(v.fields, "delimiter") else delimiter;
      if v.Str? then Ok(Make(v, chosen)) else Ok(Make(Property(v.fields, "path"), chosen))
  }

  /** An object input's result does not depend on the call-level delimiter. */
  lemma ObjectIgnoresCallDelimiter(fields: map<string, Value>, d1: Value, d2: Value)
    ensures From(Obj(fields), d1) == From(Obj(fields), d2)
  {
  }

  /** A bare string keeps its text as the path; its delimiter is the call's
      delimiter, or `'/'` when none was passed. */
  lemma StringInput(s: string, d: Value)
    ensures From(Str(s), d).Ok?
    ensures From(Str(s), d).value.path == Str(s)
    ensures From(Str(s), Undefined).value.delimiter == Str("/")
    ensures !d.Undefined? ==> From(Str(s), d).value.delimiter == d
  {
  }

  /** Numbers, booleans, null, undefined and objects without `path` are all rejected. */
  lemma RejectsNonLike(n: real, b: bool, fields: map<string, Value>, d: Value)
    requires "path" !in fields
    ensures From(Num(n), d).Err? && From(Bool(b), d).Err?
    ensures From(Null, d).Err? && From(Undefined, d).Err? && From(Obj(fields), d).Err?
  {
  }
}

=== FILE: ssm_loader.dfy ===
/** The store loader (`loadSsmParams`): fetches every parameter under each
    configured path, by one of two strategies chosen by the global path
    delimiter, then folds them into one nested environment object keyed by
    the part of each name below its path. */
module SsmLoader {
  import opened Wrappers
  import opened Strings
  import opened StringTree
  import opened Pagination

  /** A parameter as the store returns it; `Name` and `Value` may be absent. */
  datatype Parameter = Parameter(name: Option<string>, value: Option<string>)

  /** What a describe request returns per parameter: its name only. */
  datatype Metadata = Metadata(name: Option<string>)

  /** A returned parameter tagged with the path whose query produced it. */
  datatype Tagged = Tagged(path: string, name: Option<string>, value: Option<string>)

  /** The reply to one get-by-names request. Names the store does not know
      come back in `InvalidParameters` and are only logged. */
  datatype BatchReply =
    | Fetched(parameters: Option<seq<Parameter>>, invalid: Option<seq<string>>)
    | FetchFailed(message: string)

  /** The parameter store as an oracle: the reply chain of a by-path run and
      of a describe run for each path, and the reply to each get-by-names
      request, identified by the path it is made for and the names it asks for. */
  datatype Store = Store(
    byPath: string -> Chain<Parameter>,
    describe: string -> Chain<Metadata>,
    getByNames: (string, seq<Option<string>>) -> BatchReply)

  /** The options this loader reads: string paths and one global delimiter. */
  datatype Options = Options(paths: seq<string>, pathDelimiter: string)

  /** The most names one get-by-names request may carry. */
  const BatchLimit: nat := 10

  datatype Strategy = ByPath | ByPrefix

  /** A delimiter of exactly `'/'` selects the recursive by-path query; any
      other delimiter selects describe-then-fetch. */
  function StrategyFor(delimiter: string): (s: Strategy)
    ensures s == ByPath <==> delimiter == "/"
  {
    if delimiter == "/" then ByPath else ByPrefix
  }

  function Tag(path: string, ps: seq<Parameter>): (r: seq<Tagged>)
    ensures |r| == |ps|
    ensures forall i :: 0 <= i < |ps| ==> r[i] == Tagged(path, ps[i].name, ps[i].value)
  {
    seq(|ps|, i requires 0 <= i < |ps| => Tagged(path, ps[i].name, ps[i].value))
  }

  /** `chunk.map(datum => datum.Name)`. */
  function NamesOf(ms: seq<Metadata>): (r: seq<Option<string>>)
    ensures |r| == |ms|
    ensures forall i :: 0 <= i < |ms| ==> r[i] == ms[i].name
  {
    seq(|ms|, i requires 0 <= i < |ms| => ms[i].name)
  }

  lemma NamesOfAppend(a: seq<Metadata>, b: seq<Metadata>)
    ensures NamesOf(a + b) == NamesOf(a) + NamesOf(b)
  {
  }

  /** The name lists of the get-by-names requests made for `path`: the
      described names in consecutive batches of at most ten, which together
      are exactly the described names in order. */
  function Batches(path: string, store: Store): (r: seq<seq<Option<string>>>)
    ensures forall i :: 0 <= i < |r| ==> 0 < |r[i]| <= BatchLimit
    ensures Concat(r) == NamesOf(Collected(store.describe(path)))
  {
    var chunks := Chunk(Collected(store.describe(path)), BatchLimit);
    var r := seq(|chunks|, i requires 0 <= i < |chunks| => NamesOf(chunks[i]));
    ConcatNames(chunks);
    r
  }

  lemma {:induction false} ConcatNames(chunks: seq<seq<Metadata>>)
    ensures Concat(seq(|chunks|, i requires 0 <= i < |chunks| => NamesOf(chunks[i]))) == NamesOf(Concat(chunks))
    decreases |chunks|
  {
    if |chunks| > 0 {
      var all := seq(|chunks|, i requires 0 <= i < |chunks| => NamesOf(chunks[i]));
      var tail := seq(|chunks| - 1, i requires 0 <= i < |chunks| - 1 => NamesOf(chunks[1..][i]));
      assert all[1..] == tail;
      ConcatNames(chunks[1..]);
      NamesOfAppend(chunks[0], Concat(chunks[1..]));
    }
  }

  /** What one batch contributes: its parameters tagged with `path`, or
      nothing when the request failed. */
  function BatchResult(path: string, reply: BatchReply): (r: seq<Tagged>)
    ensures reply.FetchFailed? ==> r == []
    ensures reply.Fetched? ==>
              var ps := ItemsOr(reply.parameters);
              |r| == |ps| && forall i :: 0 <= i < |r| ==> r[i] == Tagged(path, ps[i].name, ps[i].value)
  {
    match reply
    case Fetched(ps, _) => Tag(path, ItemsOr(ps))
    case FetchFailed(_) => []
  }

  /** The get-by-names requests for `path`, one per batch, results concatenated in batch order. */
  function FetchBatches(path: string, batches: seq<seq<Option<string>>>, store: Store): (r: seq<Tagged>)
    ensures forall i :: 0 <= i < |r| ==> r[i].path == path
    decreases |batches|
  {
    if |batches| == 0 then []
    else BatchResult(path, store.getByNames(path, batches[0])) + FetchBatches(path, batches[1..], store)
  }

  lemma {:induction false} FetchBatchesAppend(path: string, a: seq<seq<Option<string>>>, b: seq<seq<Option<string>>>, store: Store)
    ensures FetchBatches(path, a + b, store) == FetchBatches(path, a, store) + FetchBatches(path, b, store)
    decreases |a|
  {
    if |a| > 0 {
      assert (a + b)[1..] == a[1..] + b;
      FetchBatchesAppend(path, a[1..], b, store);
    } else {
      assert a + b == b;
    }
  }

  /** A failing batch contributes nothing and leaves the other batches' results in place. */
  lemma FailingBatchDropsOnlyItself(path: string, a: seq<seq<Option<string>>>, b: seq<Option<string>>,
                                    c: seq<seq<Option<string>>>, store: Store)
    requires store.getByNames(path, b).FetchFailed?
    ensures FetchBatches(path, a + [b] + c, store) == FetchBatches(path, a, store) + FetchBatches(path, c, store)
  {
    FetchBatchesAppend(path, a + [b], c, store);
    FetchBatchesAppend(path, a, [b], store);
    assert [b][0] == b && [b][1..] == [];
    assert FetchBatches(path, [b], store) == [];
    assert FetchBatches(path, a, store) + [] == FetchBatches(path, a, store);
  }

  /** A successful batch contributes all its parameters, in reply order,
      between the results of the batches around it. */
  lemma FetchedBatchContributesItsParameters(path: string, a: seq<seq<Option<string>>>, b: seq<Option<string>>,
                                             c: seq<seq<Option<string>>>, store: Store,
                                             ps: Option<seq<Parameter>>, invalid: Option<seq<string>>)
    requires store.getByNames(path, b) == Fetched(ps, invalid)
    ensures FetchBatches(path, a + [b] + c, store) ==
            FetchBatches(path, a, store) + Tag(path, ItemsOr(ps)) + FetchBatches(path, c, store)
  {
    var fa, fc := FetchBatches(path, a, store), FetchBatches(path, c, store);
    var mine := Tag(path, ItemsOr(ps));
    assert BatchResult(path, store.getByNames(path, b)) == mine;
    assert [b][1..] == [];
    assert FetchBatches(path, [b], store) == mine + FetchBatches(path, [], store);
    assert FetchBatches(path, [b], store) == mine;
    FetchBatchesAppend(path, a, [b], store);
    FetchBatchesAppend(path, a + [b], c, store);
    assert FetchBatches(path, a + [b] + c, store) == (fa + mine) + fc;
  }

  /** Everything fetched for one path, each parameter tagged with that path. */
  function PerPath(path: string, store: Store, strategy: Strategy): (r: seq<Tagged>)
    ensures forall i :: 0 <= i < |r| ==> r[i].path == path
  {
    match strategy
    case ByPath => Tag(path, Collected(store.byPath(path)))
    case ByPrefix => FetchBatches(path, Batches(path, store), store)
  }

  /** The per-path results concatenated in the order of `paths` (the
      `Promise.all(...).flat()`), whatever order the requests complete in. */
  function Gather(paths: seq<string>, store: Store, strategy: Strategy): (r: seq<Tagged>)
    ensures forall i :: 0 <= i < |r| ==> r[i].path in paths
    decreases |paths|
  {
    if |paths| == 0 then []
    else
      var rest := Gather(paths[1..], store, strategy);
      assert forall i :: 0 <= i < |rest| ==> rest[i].path in paths by {
        forall i | 0 <= i < |rest| ensures rest[i].path in paths {
          var k :| 0 <= k < |paths[1..]| && paths[1..][k] == rest[i].path;
          assert paths[k + 1] == rest[i].path;
        }
      }
      PerPath(paths[0], store, strategy) + rest
  }

  lemma {:induction false} GatherAppend(a: seq<string>, b: seq<string>, store: Store, strategy: Strategy)
    ensures Gather(a + b, store, strategy) == Gather(a, store, strategy) + Gather(b, store, strategy)
    decreases |a|
  {
    if |a| > 0 {
      assert (a + b)[1..] == a[1..] + b;
      GatherAppend(a[1..], b, store, strategy);
    } else {
      assert a + b == b;
    }
  }

  /** The parameters of `ts` that were fetched for path `q`, in order. */
  function OnPath(ts: seq<Tagged>, q: string): seq<Tagged>
    decreases |ts|
  {
    if |ts| == 0 then [] else (if ts[0].path == q then [ts[0]] else []) + OnPath(ts[1..], q)
  }

  lemma {:induction false} OnPathAppend(a: seq<Tagged>, b: seq<Tagged>, q: string)
    ensures OnPath(a + b, q) == OnPath(a, q) + OnPath(b, q)
    decreases |a|
  {
    if |a| > 0 {
      assert (a + b)[1..] == a[1..] + b;
      OnPathAppend(a[1..], b, q);
    } else {
      assert a + b == b;
    }
  }

  lemma {:induction false} OnPathOther(ts: seq<Tagged>, p: string, q: string)
    requires p != q
    requires forall i :: 0 <= i < |ts| ==> ts[i].path == p
    ensures OnPath(ts, q) == []
    decreases |ts|
  {
    if |ts| > 0 {
      OnPathOther(ts[1..], p, q);
    }
  }

  /** The store answers the requests a strategy makes for `q` alike in `s1` and `s2`. */
  ghost predicate SameAnswers(s1: Store, s2: Store, q: string, strategy: Strategy) {
    match strategy
    case ByPath => s1.byPath(q) == s2.byPath(q)
    case ByPrefix =>
      && s1.describe(q) == s2.describe(q)
      && forall names :: s1.getByNames(q, names) == s2.getByNames(q, names)
  }

  lemma {:induction false} FetchBatchesAgree(q: string, bs: seq<seq<Option<string>>>, s1: Store, s2: Store)
    requires forall names :: s1.getByNames(q, names) == s2.getByNames(q, names)
    ensures FetchBatches(q, bs, s1) == FetchBatches(q, bs, s2)
    decreases |bs|
  {
    if |bs| > 0 {
      FetchBatchesAgree(q, bs[1..], s1, s2);
    }
  }

  lemma PerPathAgree(q: string, s1: Store, s2: Store, strategy: Strategy)
    requires SameAnswers(s1, s2, q, strategy)
    ensures PerPath(q, s1, strategy) == PerPath(q, s2, strategy)
  {
    if strategy == ByPrefix {
      FetchBatchesAgree(q, Batches(q, s1), s1, s2);
    }
  }

  /** Failure isolation: whatever the store does for path `p` (fail on any
      page, return other pages), the parameters fetched for every other path
      are the same. */
  lemma {:induction false} FailureIsolation(paths: seq<string>, s1: Store, s2: Store, strategy: Strategy, p: string, q: string)
    requires forall r :: r != p ==> SameAnswers(s1, s2, r, strategy)
    requires q != p
    ensures OnPath(Gather(paths, s1, strategy), q) == OnPath(Gather(paths, s2, strategy), q)
    decreases |paths|
  {
    if |paths| > 0 {
      var head := paths[0];
      OnPathAppend(PerPath(head, s1, strategy), Gather(paths[1..], s1, strategy), q);
      OnPathAppend(PerPath(head, s2, strategy), Gather(paths[1..], s2, strategy), q);
      FailureIsolation(paths[1..], s1, s2, strategy, p, q);
      if head == p {
        OnPathOther(PerPath(head, s1, strategy), head, q);
        OnPathOther(PerPath(head, s2, strategy), head, q);
      } else {
        PerPathAgree(head, s1, s2, strategy);
      }
    }
  }

  /** A run that fails after any number of pages keeps exactly the items of
      the pages before the failure: for a by-path run those are the path's
      parameters; for a describe run those are the names fetched in batches. */
  lemma FailedPathYieldsEarlierPages(path: string, store: Store, pages: seq<Page<Parameter>>, msg: string,
                                     described: seq<Page<Metadata>>, describeMsg: string)
    ensures store.byPath(path) == Chained(pages, Broken(msg)) ==>
      PerPath(path, store, ByPath) == Tag(path, PageItems(pages))
    ensures store.describe(path) == Chained(described, Broken(describeMsg)) ==>
      Concat(Batches(path, store)) == NamesOf(PageItems(described))
  {
    CollectedChained(pages, Broken(msg));
    assert PageItems(pages) + [] == PageItems(pages);
    CollectedChained(described, Broken(describeMsg));
    assert PageItems(described) + [] == PageItems(described);
  }

  /** A run that completes after any number of pages keeps every page's
      items, the last page's included, in page order: for the by-path run
      these are the path's parameters, for the describe run the names the
      batches are cut from. */
  lemma CompletedPathYieldsAllPages(path: string, store: Store, pages: seq<Page<Parameter>>,
                                    items: Option<seq<Parameter>>, described: seq<Page<Metadata>>,
                                    describedLast: Option<seq<Metadata>>)
    ensures store.byPath(path) == Chained(pages, Last(items)) ==>
      PerPath(path, store, ByPath) == Tag(path, PageItems(pages) + ItemsOr(items))
    ensures store.describe(path) == Chained(described, Last(describedLast)) ==>
      Concat(Batches(path, store)) == NamesOf(PageItems(described) + ItemsOr(describedLast))
  {
    CollectedChained(pages, Last(items));
    CollectedChained(described, Last(describedLast));
  }

  // ---------------------------------------------------------------------
  // From parameter names to keys of the environment object.
  // ---------------------------------------------------------------------

  /** `segments.pop()`; popping an empty list gives undefined, which lodash
      then uses as the key "undefined". */
  function LastSegment(segments: seq<string>): string
  {
    if |segments| == 0 then "undefined" else segments[|segments| - 1]
  }

  /** The leading `path` and at most one following delimiter, removed from `name`. */
  function StripPath(name: string, path: string, delimiter: string): (r: string)
    ensures !StartsWith(name, path) ==> r == name
    ensures StartsWith(name, path) && StartsWith(name[|path|..], delimiter) ==> r == name[|path| + |delimiter|..]
    ensures StartsWith(name, path) && !StartsWith(name[|path|..], delimiter) ==> r == name[|path|..]
  {
    if StartsWith(name, path) then
      var rest := name[|path|..];
      if StartsWith(rest, delimiter) then rest[|delimiter|..] else rest
    else name
  }

  /** The dotted key of a parameter: the last segment of its name when the
      name is the path itself, otherwise the part below the path with each
      delimiter turned into a dot. */
  function KeyOf(path: string, name: string, delimiter: string): string
  {
    if path == name then LastSegment(Split(name, delimiter))
    else Join(Split(StripPath(name, path, delimiter), delimiter), ".")
  }

  /** How lodash `set` reads a dotted key: the steps between the dots. */
  function LodashPath(key: string): (r: seq<string>)
    ensures |r| >= 1
  {
    Split(key, ".")
  }

  /** The assignments of the fold: parameters without a name are skipped. */
  function Entries(ts: seq<Tagged>, delimiter: string): seq<Entry>
    decreases |ts|
  {
    if |ts| == 0 then []
    else EntriesOf(ts[0], delimiter) + Entries(ts[1..], delimiter)
  }

  /** The assignment one parameter contributes: none without a name. */
  function EntriesOf(t: Tagged, delimiter: string): seq<Entry>
  {
    if t.name.Some? then [EntryFor(t, delimiter)] else []
  }

  function EntryFor(t: Tagged, delimiter: string): Entry
    requires t.name.Some?
  {
    Entry(LodashPath(KeyOf(t.path, t.name.value, delimiter)), t.value)
  }

  lemma {:induction false} EntriesAppend(a: seq<Tagged>, b: seq<Tagged>, delimiter: string)
    ensures Entries(a + b, delimiter) == Entries(a, delimiter) + Entries(b, delimiter)
    decreases |a|
  {
    if |a| > 0 {
      assert (a + b)[1..] == a[1..] + b;
      EntriesAppend(a[1..], b, delimiter);
    } else {
      assert a + b == b;
    }
  }

  /** Every assignment comes from a named parameter of `ts`. */
  lemma {:induction false} EntriesFromNamed(ts: seq<Tagged>, delimiter: string, k: nat)
    requires k < |Entries(ts, delimiter)|
    ensures exists j :: 0 <= j < |ts| && ts[j].name.Some? &&
                        Entries(ts, delimiter)[k] == Entry(LodashPath(KeyOf(ts[j].path, ts[j].name.value, delimiter)), ts[j].value)
    decreases |ts|
  {
    var es := Entries(ts, delimiter);
    var head := EntriesOf(ts[0], delimiter);
    var tail := Entries(ts[1..], delimiter);
    assert es == head + tail;
    if k < |head| {
      assert es[k] == EntryFor(ts[0], delimiter);
    } else {
      var k' := k - |head|;
      assert es[k] == tail[k'];
      EntriesFromNamed(ts[1..], delimiter, k');
      var j :| 0 <= j < |ts[1..]| && ts[1..][j].name.Some? &&
        tail[k'] == Entry(LodashPath(KeyOf(ts[1..][j].path, ts[1..][j].name.value, delimiter)), ts[1..][j].value);
      assert ts[j + 1] == ts[1..][j];
    }
  }

  /** The fold: starting from an empty object, set each named parameter's
      value at its key, in order. */
  function Build(ts: seq<Tagged>, delimiter: string): Tree
  {
    SetAll(Empty, Entries(ts, delimiter))
  }

  /** `loadSsmParams(options)`. */
  function LoadSsmParams(opts: Options, store: Store): Tree
  {
    Build(Gather(opts.paths, store, StrategyFor(opts.pathDelimiter)), opts.pathDelimiter)
  }

  // ---------------------------------------------------------------------
  // Properties of the key derivation and the fold.
  // ---------------------------------------------------------------------

  /** A name one delimiter below its path, followed by segments that contain
      neither the (one-character) delimiter nor a dot, is keyed by those
      segments joined with dots, and lodash sets it at exactly those steps. */
  lemma NestedNameKey(path: string, segments: seq<string>, delimiter: string)
    requires |delimiter| == 1 && |segments| >= 1
    requires forall k :: 0 <= k < |segments| ==> delimiter[0] !in segments[k] && '.' !in segments[k]
    ensures KeyOf(path, path + delimiter + Join(segments, delimiter), delimiter) == Join(segments, ".")
    ensures LodashPath(KeyOf(path, path + delimiter + Join(segments, delimiter), delimiter)) == segments
  {
    var rest := Join(segments, delimiter);
    var name := path + delimiter + rest;
    assert name[..|path|] == path;
    assert name[|path|..] == delimiter + rest;
    assert (delimiter + rest)[..|delimiter|] == delimiter;
    assert (delimiter + rest)[|delimiter|..] == rest;
    assert StripPath(name, path, delimiter) == rest;
    JoinSplit(segments, delimiter);
    JoinSplit(segments, ".");
  }

  /** The entries of `before + [t] + after` for a named `t`: `t`'s own entry
      sits between those of `before` and `after`. */
  lemma EntriesAround(before: seq<Tagged>, t: Tagged, after: seq<Tagged>, delimiter: string)
    returns (es: seq<Entry>)
    requires t.name.Some?
    ensures es == Entries(before + [t] + after, delimiter)
    ensures es == Entries(before, delimiter) + [EntryFor(t, delimiter)] + Entries(after, delimiter)
  {
    EntriesAppend(before + [t], after, delimiter);
    EntriesAppend(before, [t], delimiter);
    assert [t][1..] == [];
    assert Entries([t], delimiter) == [EntryFor(t, delimiter)] + [];
    es := Entries(before + [t] + after, delimiter);
  }

  /** Last write wins: a named parameter is what its key holds at the end,
      provided no later named parameter writes at, above or below that key. */
  lemma LaterParameterWins(before: seq<Tagged>, t: Tagged, after: seq<Tagged>, delimiter: string)
    requires t.name.Some?
    requires forall j :: 0 <= j < |after| && after[j].name.Some? ==>
      Diverges(LodashPath(KeyOf(after[j].path, after[j].name.value, delimiter)),
               LodashPath(KeyOf(t.path, t.name.value, delimiter)))
    ensures Lookup(Build(before + [t] + after, delimiter), LodashPath(KeyOf(t.path, t.name.value, delimiter))) == Some(Leaf(t.value))
  {
    var q := LodashPath(KeyOf(t.path, t.name.value, delimiter));
    var eb, ea := Entries(before, delimiter), Entries(after, delimiter);
    var es := EntriesAround(before, t, after, delimiter);
    assert es[|eb|] == Entry(q, t.value);
    forall j | |eb| < j < |es|
      ensures Diverges(es[j].path, q)
    {
      var k := j - |eb| - 1;
      assert es[j] == ea[k];
      EntriesFromNamed(after, delimiter, k);
      var i :| 0 <= i < |after| && after[i].name.Some? &&
               ea[k] == Entry(LodashPath(KeyOf(after[i].path, after[i].name.value, delimiter)), after[i].value);
    }
    SetAllLastWins(Empty, es, |eb|);
  }

  /** A parameter without a name, wherever it comes, leaves the result unchanged. */
  lemma NamelessIgnored(before: seq<Tagged>, path: string, value: Option<string>, after: seq<Tagged>, delimiter: string)
    ensures Build(before + [Tagged(path, None, value)] + after, delimiter) == Build(before + after, delimiter)
  {
    var t := Tagged(path, None, value);
    EntriesAppend(before + [t], after, delimiter);
    EntriesAppend(before, [t], delimiter);
    EntriesAppend(before, after, delimiter);
    assert [t][1..] == [];
    assert Entries([t], delimiter) == [] + [];
    assert Entries(before, delimiter) + [] == Entries(before, delimiter);
  }

  /** The fold over `a + b` applies `b`'s assignments on top of the fold over `a`. */
  lemma BuildAppend(a: seq<Tagged>, b: seq<Tagged>, delimiter: string)
    ensures Build(a + b, delimiter) == SetAll(Build(a, delimiter), Entries(b, delimiter))
  {
    EntriesAppend(a, b, delimiter);
    SetAllAppend(Empty, Entries(a, delimiter), Entries(b, delimiter));
  }

  /** Paths later in the list are applied on top of earlier ones: loading
      `a + b` sets the parameters of `b` over the result of loading `a`. */
  lemma LaterPathsOverride(a: seq<string>, b: seq<string>, delimiter: string, store: Store)
    ensures LoadSsmParams(Options(a + b, delimiter), store) ==
      SetAll(LoadSsmParams(Options(a, delimiter), store), Entries(Gather(b, store, StrategyFor(delimiter)), delimiter))
  {
    var st := StrategyFor(delimiter);
    GatherAppend(a, b, store, st);
    BuildAppend(Gather(a, store, st), Gather(b, store, st), delimiter);
  }

  /** A parameter whose name is its path (possible under the describe
      strategy) is set at the top level, under the path's last segment. */
  lemma PathItselfKey(segments: seq<string>, delimiter: string)
    requires |delimiter| == 1 && |segments| >= 1
    requires forall k :: 0 <= k < |segments| ==> delimiter[0] !in segments[k] && '.' !in segments[k]
    ensures var p := Join(segments, delimiter);
            LodashPath(KeyOf(p, p, delimiter)) == [segments[|segments| - 1]]
  {
    var last := segments[|segments| - 1];
    JoinSplit(segments, delimiter);
    assert Join([last], ".") == last;
    JoinSplit([last], ".");
  }

  /** With the `'/'` delimiter only the by-path replies matter; with any other
      only the describe and get-by-names replies do. */
  lemma StrategySelection(opts: Options, s1: Store, s2: Store)
    ensures opts.pathDelimiter == "/" && (forall p :: s1.byPath(p) == s2.byPath(p)) ==>
      LoadSsmParams(opts, s1) == LoadSsmParams(opts, s2)
    ensures opts.pathDelimiter != "/" && (forall p :: s1.describe(p) == s2.describe(p))
            && (forall p, names :: s1.getByNames(p, names) == s2.getByNames(p, names)) ==>
      LoadSsmParams(opts, s1) == LoadSsmParams(opts, s2)
  {
    var st := StrategyFor(opts.pathDelimiter);
    if (st == ByPath && forall p :: s1.byPath(p) == s2.byPath(p))
       || (st == ByPrefix && (forall p :: s1.describe(p) == s2.describe(p))
           && (forall p, names :: s1.getByNames(p, names) == s2.getByNames(p, names))) {
      GatherAgree(opts.paths, s1, s2, st);
    }
  }

  lemma {:induction false} GatherAgree(paths: seq<string>, s1: Store, s2: Store, strategy: Strategy)
    requires forall q :: SameAnswers(s1, s2, q, strategy)
    ensures Gather(paths, s1, strategy) == Gather(paths, s2, strategy)
    decreases |paths|
  {
    if |paths| > 0 {
      PerPathAgree(paths[0], s1, s2, strategy);
      GatherAgree(paths[1..], s1, s2, strategy);
    }
  }

  /** The parameter `/app/stg/db/password` fetched under `/app/stg` over two
      pages lands at `db.password`. */
  lemma PaginatedPasswordExample(store: Store, password: string)
    requires store.byPath("/app/stg") ==
      Next(Some([Parameter(Some("/app/stg/db/password"), Some(password))]), "fakeToken", Last(Some([])))
    ensures Lookup(LoadSsmParams(Options(["/app/stg"], "/"), store), ["db", "password"]) == Some(Leaf(Some(password)))
  {
    var t := Tagged("/app/stg", Some("/app/stg/db/password"), Some(password));
    PasswordKey();
    SinglePageGather(store, t);
    LaterParameterWins([], t, [], "/");
    assert [] + [t] + [] == [t];
  }

  lemma PasswordKey()
    ensures LodashPath(KeyOf("/app/stg", "/app/stg/db/password", "/")) == ["db", "password"]
  {
    var segments := ["db", "password"];
    assert Join(segments[1..], "/") == "password";
    assert Join(segments, "/") == "db/password";
    assert "/app/stg/db/password" == "/app/stg" + "/" + "db/password";
    NestedNameKey("/app/stg", segments, "/");
  }

  lemma SinglePageGather(store: Store, t: Tagged)
    requires t.path == "/app/stg"
    requires store.byPath(t.path) == Next(Some([Parameter(t.name, t.value)]), "fakeToken", Last(Some([])))
    ensures Gather(["/app/stg"], store, StrategyFor("/")) == [t]
  {
    var c := store.byPath(t.path);
    assert Collected(c) == [Parameter(t.name, t.value)] + [];
    assert Tag(t.path, [Parameter(t.name, t.value)]) == [t];
    var paths := ["/app/stg"];
    assert paths[1..] == [];
  }
}

=== FILE: string_tree.dfy ===
/** The nested environment object the store loader builds, and the
    "set a value at a dotted path" operation (lodash `set`) that builds it. */
module StringTree {
  import opened Wrappers

  /** A leaf holds one parameter's value (`None` when the store sent no
      `Value`); a node maps property names to subtrees. */
  datatype Tree = Leaf(value: Option<string>) | Node(children: map<string, Tree>)

  const Empty: Tree := Node(map[])

  /** The properties of a tree; a leaf has none. */
  function Children(t: Tree): map<string, Tree>
  {
    if t.Node? then t.children else map[]
  }

  /** The subtree at `path`, if every step of it exists. */
  function Lookup(t: Tree, path: seq<string>): Option<Tree>
    decreases |path|
  {
    if |path| == 0 then Some(t)
    else if t.Node? && path[0] in t.children then Lookup(t.children[path[0]], path[1..])
    else None
  }

  /** `set(t, path, v)`: walks `path`, keeping each existing object on the
      way, replacing anything that is not an object (a leaf) or is missing
      by a fresh empty object, and overwrites the last step with `v`.
      (An empty path, which lodash's path parsing never produces, replaces
      the whole tree.) */
  function DeepSet(t: Tree, path: seq<string>, v: Option<string>): Tree
    decreases |path|
  {
    if |path| == 0 then Leaf(v)
    else
      var kids := Children(t);
      var child := if path[0] in kids then kids[path[0]] else Empty;
      Node(kids[path[0] := DeepSet(child, path[1..], v)])
  }

  /** Two paths that part ways: at some position both have a step and the
      steps differ, after an equal common prefix. */
  predicate Diverges(p: seq<string>, q: seq<string>)
    decreases |p|
  {
    |p| > 0 && |q| > 0 && (p[0] != q[0] || Diverges(p[1..], q[1..]))
  }

  /** After setting, the value sits at its path. */
  lemma {:induction false} SetThenLookup(t: Tree, p: seq<string>, v: Option<string>)
    ensures Lookup(DeepSet(t, p, v), p) == Some(Leaf(v))
    decreases |p|
  {
    if |p| > 0 {
      var kids := Children(t);
      var child := if p[0] in kids then kids[p[0]] else Empty;
      SetThenLookup(child, p[1..], v);
    }
  }

  /** Setting at `p` leaves every path that parts ways with `p` as it was. */
  lemma {:induction false} SetKeepsDivergingPaths(t: Tree, p: seq<string>, v: Option<string>, q: seq<string>)
    requires Diverges(p, q)
    ensures Lookup(DeepSet(t, p, v), q) == Lookup(t, q)
    decreases |p|
  {
    var kids := Children(t);
    var child := if p[0] in kids then kids[p[0]] else Empty;
    if p[0] == q[0] {
      SetKeepsDivergingPaths(child, p[1..], v, q[1..]);
      if !(t.Node? && q[0] in t.children) {
        assert Lookup(Empty, q[1..]) == None;
      }
    }
  }

  /** One assignment of the fold: a value at a lodash path. */
  datatype Entry = Entry(path: seq<string>, value: Option<string>)

  /** The `reduce` that sets every entry in order, starting from `t`. */
  function SetAll(t: Tree, es: seq<Entry>): Tree
    decreases |es|
  {
    if |es| == 0 then t else SetAll(DeepSet(t, es[0].path, es[0].value), es[1..])
  }

  /** Applying `a + b` is applying `a`, then `b` on top of the result. */
  lemma {:induction false} SetAllAppend(t: Tree, a: seq<Entry>, b: seq<Entry>)
    ensures SetAll(t, a + b) == SetAll(SetAll(t, a), b)
    decreases |a|
  {
    if |a| > 0 {
      assert (a + b)[0] == a[0];
      assert (a + b)[1..] == a[1..] + b;
      SetAllAppend(DeepSet(t, a[0].path, a[0].value), a[1..], b);
    } else {
      assert a + b == b;
    }
  }

  /** Entries whose paths all part ways with `q` do not touch `q`. */
  lemma {:induction false} SetAllKeepsDivergingPath(t: Tree, es: seq<Entry>, q: seq<string>)
    requires forall j :: 0 <= j < |es| ==> Diverges(es[j].path, q)
    ensures Lookup(SetAll(t, es), q) == Lookup(t, q)
    decreases |es|
  {
    if |es| > 0 {
      SetKeepsDivergingPaths(t, es[0].path, es[0].value, q);
      SetAllKeepsDivergingPath(DeepSet(t, es[0].path, es[0].value), es[1..], q);
    }
  }

  /** Last write wins: entry `i` is what its path holds at the end, provided
      no later entry writes at, above or below that path. */
  lemma {:induction false} SetAllLastWins(t: Tree, es: seq<Entry>, i: nat)
    requires i < |es|
    requires forall j :: i < j < |es| ==> Diverges(es[j].path, es[i].path)
    ensures Lookup(SetAll(t, es), es[i].path) == Some(Leaf(es[i].value))
    decreases |es|
  {
    var t' := DeepSet(t, es[0].path, es[0].value);
    if i == 0 {
      SetThenLookup(t, es[0].path, es[0].value);
      SetAllKeepsDivergingPath(t', es[1..], es[0].path);
    } else {
      SetAllLastWins(t', es[1..], i - 1);
    }
  }

  /** Two parameters under one prefix share one object, and a later
      parameter at the same path replaces the earlier value. */
  lemma SharedPrefixExample(pw: string, user: string, other: string)
    ensures var es := [Entry(["db", "password"], Some(pw)), Entry(["db", "username"], Some(user))];
      Lookup(SetAll(Empty, es), ["db"]) == Some(Node(map["password" := Leaf(Some(pw)), "username" := Leaf(Some(user))]))
    ensures var es := [Entry(["db", "password"], Some(pw)), Entry(["db", "password"], Some(other))];
      Lookup(SetAll(Empty, es), ["db", "password"]) == Some(Leaf(Some(other)))
  {
    var es := [Entry(["db", "password"], Some(pw)), Entry(["db", "username"], Some(user))];
    var t1 := DeepSet(Empty, es[0].path, es[0].value);
    var t2 := DeepSet(t1, es[1].path, es[1].value);
    assert es[1..][0] == es[1] && es[1..][1..] == [];
    assert SetAll(Empty, es) == SetAll(t1, es[1..]);
    assert SetAll(t1, es[1..]) == SetAll(t2, es[1..][1..]);
    assert t1 == Node(map["db" := Node(map["password" := Leaf(Some(pw))])]);
    var es2 := [Entry(["db", "password"], Some(pw)), Entry(["db", "password"], Some(other))];
    SetAllLastWins(Empty, es2, 1);
  }
}

=== FILE: strings.dfy ===
/** The JavaScript string operations the loaders rely on. A Dafny `char` is
    a Unicode scalar value where JavaScript indexes UTF-16 code units; the
    two agree for every character outside the supplementary planes. */
module Strings {
  import opened Wrappers

  predicate StartsWith(s: string, prefix: string) {
    |prefix| <= |s| && s[..|prefix|] == prefix
  }

  predicate EndsWith(s: string, suffix: string) {
    |suffix| <= |s| && s[|s| - |suffix|..] == suffix
  }

  /** `pattern` occurs in `s` starting at index `i`. */
  predicate OccursAt(s: string, pattern: string, i: nat) {
    i + |pattern| <= |s| && s[i..i + |pattern|] == pattern
  }

  /** `s.indexOf(pattern, from)`: the first occurrence at or after `from`. */
  function IndexFrom(s: string, pattern: string, from: nat): (r: Option<nat>)
    requires from <= |s|
    ensures r.Some? ==> from <= r.value && OccursAt(s, pattern, r.value)
    ensures r.Some? ==> forall j :: from <= j < r.value ==> !OccursAt(s, pattern, j)
    ensures r.None? ==> forall j :: from <= j <= |s| ==> !OccursAt(s, pattern, j)
    decreases |s| - from
  {
    if OccursAt(s, pattern, from) then Some(from)
    else if from == |s| then None
    else IndexFrom(s, pattern, from + 1)
  }

  /** `s.indexOf(pattern)`: the first occurrence, if any (an empty pattern occurs at 0). */
  function IndexOf(s: string, pattern: string): (r: Option<nat>)
    ensures r.Some? ==> OccursAt(s, pattern, r.value)
    ensures r.Some? ==> forall j :: 0 <= j < r.value ==> !OccursAt(s, pattern, j)
    ensures r.None? ==> forall j :: 0 <= j <= |s| ==> !OccursAt(s, pattern, j)
  {
    IndexFrom(s, pattern, 0)
  }

  /** `s.split(sep)`: an empty separator splits into single code units, any
      other separator cuts at each non-overlapping occurrence, left to right. */
  function Split(s: string, sep: string): (parts: seq<string>)
    ensures sep != "" ==> |parts| >= 1
    decreases |s|
  {
    if sep == "" then seq(|s|, i requires 0 <= i < |s| => [s[i]])
    else
      match IndexOf(s, sep)
      case None => [s]
      case Some(i) => [s[..i]] + Split(s[i + |sep|..], sep)
  }

  /** `parts.join(sep)`. */
  function Join(parts: seq<string>, sep: string): string
  {
    if |parts| == 0 then ""
    else if |parts| == 1 then parts[0]
    else parts[0] + sep + Join(parts[1..], sep)
  }

  /** `s.replace(pattern, '')` with a string pattern: removes the first
      occurrence only, leaving `s` unchanged when there is none. */
  function RemoveFirst(s: string, pattern: string): (r: string)
    ensures (forall j :: 0 <= j <= |s| ==> !OccursAt(s, pattern, j)) ==> r == s
    ensures forall i: nat :: OccursAt(s, pattern, i) && (forall j :: 0 <= j < i ==> !OccursAt(s, pattern, j)) ==>
              r == s[..i] + s[i + |pattern|..]
    ensures IndexOf(s, pattern).Some? ==> |r| == |s| - |pattern|
  {
    match IndexOf(s, pattern)
    case None => s
    case Some(i) => s[..i] + s[i + |pattern|..]
  }

  /** Removing a pattern the string starts with removes exactly that prefix. */
  lemma RemoveLeadingPattern(pattern: string, rest: string)
    ensures RemoveFirst(pattern + rest, pattern) == rest
  {
    var s := pattern + rest;
    assert OccursAt(s, pattern, 0) by {
      assert s[0..|pattern|] == pattern;
    }
    assert s[|pattern|..] == rest;
  }

  /** `s.substring(start)`: a start past the end yields the empty string. */
  function Substring(s: string, start: nat): string
  {
    if start <= |s| then s[start..] else ""
  }

  /** `toLowerCase` on one code unit, for the ASCII letters. */
  function LowerChar(c: char): char
  {
    if 'A' <= c <= 'Z' then (c as int + 32) as char else c
  }

  function ToLower(s: string): string
  {
    seq(|s|, i requires 0 <= i < |s| => LowerChar(s[i]))
  }

  predicate IsLowerWord(w: string) {
    forall i :: 0 <= i < |w| ==> 'a' <= w[i] <= 'z'
  }

  /** `s` spells `w` with any mixture of upper- and lower-case letters. */
  predicate IsCaseVariant(s: string, w: string) {
    |s| == |w| && forall i :: 0 <= i < |s| ==> s[i] == w[i] || s[i] as int == w[i] as int - 32
  }

  /** Lower-casing then comparing is exactly a case-insensitive comparison. */
  lemma ToLowerMatchesCaseVariant(s: string, w: string)
    requires IsLowerWord(w)
    ensures ToLower(s) == w <==> IsCaseVariant(s, w)
  {
    if ToLower(s) == w {
      forall i | 0 <= i < |s|
        ensures s[i] == w[i] || s[i] as int == w[i] as int - 32
      {
        assert LowerChar(s[i]) == w[i];
      }
    }
    if IsCaseVariant(s, w) {
      forall i | 0 <= i < |s|
        ensures ToLower(s)[i] == w[i]
      {
        assert ToLower(s)[i] == LowerChar(s[i]);
      }
    }
  }

  /** Splitting then re-joining with the same non-empty separator restores the string. */
  lemma {:induction false} SplitJoin(s: string, sep: string)
    requires sep != ""
    ensures Join(Split(s, sep), sep) == s
    decreases |s|
  {
    var found := IndexOf(s, sep);
    if found.Some? {
      var i := found.value;
      var head := s[..i];
      var rest := s[i + |sep|..];
      SplitJoin(rest, sep);
      var tail := Split(rest, sep);
      assert Split(s, sep) == [head] + tail;
      JoinCons(head, tail, sep);
      Reassemble(s, sep, i);
    }
  }

  /** A string is the text before an occurrence, the occurrence, and the text after. */
  lemma Reassemble(s: string, pattern: string, i: nat)
    requires OccursAt(s, pattern, i)
    ensures s == s[..i] + pattern + s[i + |pattern|..]
  {
    assert s == s[..i] + s[i..i + |pattern|] + s[i + |pattern|..];
  }

  /** Joining a part in front of a non-empty list puts one separator between. */
  lemma JoinCons(head: string, tail: seq<string>, sep: string)
    requires |tail| >= 1
    ensures Join([head] + tail, sep) == head + sep + Join(tail, sep)
  {
    assert ([head] + tail)[1..] == tail;
  }

  /** Joining parts that do not contain a one-character separator, then
      splitting on it, gives the parts back. */
  lemma {:induction false} JoinSplit(parts: seq<string>, sep: string)
    requires |sep| == 1
    requires |parts| >= 1
    requires forall k :: 0 <= k < |parts| ==> sep[0] !in parts[k]
    ensures Split(Join(parts, sep), sep) == parts
    decreases |parts|
  {
    var a := parts[0];
    if |parts| == 1 {
      NoOccurrence(a, sep);
    } else {
      var tail := parts[1..];
      var j := Join(tail, sep);
      var s := a + sep + j;
      assert Join(parts, sep) == s;
      assert OccursAt(s, sep, |a|) by {
        assert s[|a|..|a| + 1] == sep;
      }
      forall k | 0 <= k < |a|
        ensures !OccursAt(s, sep, k)
      {
        assert s[k] == a[k];
        assert a[k] in a;
      }
      assert IndexOf(s, sep) == Some(|a|);
      assert s[|a| + 1..] == j;
      assert s[..|a|] == a;
      JoinSplit(tail, sep);
      assert Split(s, sep) == [a] + tail;
    }
  }

  /** A string without the separator's only character is not cut by it. */
  lemma NoOccurrence(a: string, sep: string)
    requires |sep| == 1
    requires sep[0] !in a
    ensures Split(a, sep) == [a]
  {
    forall k | 0 <= k <= |a|
      ensures !OccursAt(a, sep, k)
    {
      if k < |a| {
        assert a[k] in a;
      }
    }
  }
}

=== FILE: tfvars.dfy ===
/** The `.tfvars` file loader: which file to read (`FileSources.Load` reads it). */
module TfVars {
  import opened Wrappers
  import opened FileSources

  /** The `tfvar` option: absent, a flag, or a file name. */
  datatype TfVarOption = Unset | Flag(on: bool) | File(name: string)

  const EnvKey := "ENV_SSM_TFVAR"

  /** `resolveTfVar`: the file to read, if any. Unlike the `.env` loader,
      `true` selects no file. */
  function ResolveTfVar(option: TfVarOption, env: map<string, string>, platform: Platform): (r: Option<string>)
    ensures option.Unset? && EnvKey in env ==> r == Some(platform.resolve(platform.cwd, env[EnvKey]))
    ensures option.File? ==> r == Some(platform.resolve(platform.cwd, option.name))
    ensures r.None? <==> option.Flag? || (option.Unset? && EnvKey !in env)
  {
    if option.Unset? && EnvKey in env then Some(platform.resolve(platform.cwd, env[EnvKey]))
    else if option.File? then Some(platform.resolve(platform.cwd, option.name))
    else None
  }

  /** The file is off by default: with no option and no environment
      variable, or with a flag of either value, nothing is read. */
  lemma OffByDefault(env: map<string, string>, platform: Platform, on: bool)
    ensures EnvKey !in env ==> ResolveTfVar(Unset, env, platform) == None
    ensures ResolveTfVar(Flag(on), env, platform) == None
  {
  }

  /** Only an absent option consults the environment variable. */
  lemma ExplicitOptionIgnoresEnv(option: TfVarOption, env1: map<string, string>, env2: map<string, string>, platform: Platform)
    requires !option.Unset?
    ensures ResolveTfVar(option, env1, platform) == ResolveTfVar(option, env2, platform)
  {
  }
}

=== FILE: wrappers.dfy ===
/** Failure-compatible wrappers: an optional value, and a value-or-error for
    operations that throw in the modelled program. */
module Wrappers {

  /** A value that may be absent (JavaScript `undefined`). */
  datatype Option<+T> = None | Some(value: T) {

    /** The wrapped value, or `default` when absent (the `x ?? default` idiom). */
    function GetOr(default: T): T {
      match this
      case Some(v) => v
      case None => default
    }
  }

  /** Either the operation's value or the error it throws; never both. */
  datatype Result<+T, +E> = Ok(value: T) | Err(error: E) {

    predicate IsFailure() {
      Err?
    }

    function PropagateFailure<U>(): Result<U, E>
      requires Err?
    {
      Err(error)
    }

    function Extract(): T
      requires Ok?
    {
      value
    }
  }
}
